=== FILE: README.md ===
# DWG-AutoFill in Dafny

DWG-AutoFill fills the attributes of block references in a DWG/DXF template
with the rows of a data table (Excel, CSV or JSON). For each row it writes one
filled drawing. This project models the core of that pipeline as pure Dafny
functions and proves properties about them:

- **Mapper** (`src/mapper.py`). Column names and attribute tags are
  normalised: lower-cased, stripped to `[a-z0-9]`, then put through the six
  synonym replacements. `auto_map` then binds columns to tags, by exact
  normal-form match first and by fuzzy score above a threshold second.
- **Filler** (`src/filler.py`). `fill_document` writes one row into every
  block reference of model space and records each attribute whose text
  changed, with an approximate bounding box. `batch_fill` reloads,
  fills and saves the template once per row, catching each row's failure.
- **IoManager** (`src/io_manager.py`). `load_dwg`, `read_table` (format by
  suffix, the CSV encoding fallback, dropping empty rows, the emptiness check,
  error wrapping), `save_dwg`, `ensure_directory`, and `get_dxf_attributes`,
  which harvests the attribute tags of block definitions.
- **Gui** (`src/gui.py`). The state logic of the main window: the mapping
  table, loading the template and the data (each re-runs the automatic
  mapping when the other is present), the manual-mapping dialog as an event
  loop, and the guards and outcomes of preview and generation.
- **Logger** (`src/logger.py`). `_format_message`.

Supporting modules:

- `Wrappers`: `Option`, `Result` and `Outcome`.
- `OrderedDict`: a Python dict as a sequence of pairs in insertion order. An
  overwrite keeps the key's position.
- `Text`: ASCII lower-casing, `re.sub(r'[^a-z0-9]', '', s)`, `str.replace`,
  `str.join`, `os.path.join` and decimal rendering.
- `Dxf`: the drawing as data: block references with their attributes, other
  entities, and block definitions.
- `MapperExamples`: the worked example at the bottom of `src/mapper.py`,
  normalised step by step.

The file system, the drawing library, the table readers and the fuzzy scorer
are parameters (`IoManager.Io`, `Mapper.Fuzzy`). The proved properties
hold for every scorer and every library behaviour. The file system is one
fixed value for a whole run, though: a save is never visible to a later load
(see "## Left out").

Where the code disagrees with itself, the model follows the code that runs:

- `_generate_documents` (`src/gui.py:164-167`) reads a report out of what
  `batch_fill` returns. `batch_fill` returns a list of per-row results (see
  "## Findings").

Notes on behaviour the code's comments already describe:

- "Description -> DESC" is a fuzzy match, as the comment at
  `src/mapper.py:132` says. The "desc" synonym makes the two normal forms
  differ: "desc" becomes "description", which normalises again to
  "descriptionription". Normalisation is therefore not idempotent.
- The bounding box follows the simplifications the comments at
  `src/filler.py:32-34` and `src/filler.py:41-42` describe. It is centred on
  the insertion point, and it ignores the alignment and the block transform.

## Model

| member | source | states |
|---|---|---|
| Mapper.SynonymTableFacts | src/mapper.py:15-22 | every synonym key is non-empty and every replacement is made of `[a-z0-9]` |
| Mapper.GuardIsRedundant | src/mapper.py:35-37 | the `k in name` guard changes nothing: guarded and unconditional replacement agree on every name and table |
| Mapper.SynonymsKeepWordChars | src/mapper.py:35-37 | replacing with `[a-z0-9]` values keeps a `[a-z0-9]` name within `[a-z0-9]` |
| Mapper.Normalize | src/mapper.py:27-39 | the normal form contains only `[a-z0-9]` |
| Mapper.NormalizeUnguarded | src/mapper.py:27-39 | the normal form is the lower-cased, stripped name put through the six replacements in declared order |
| MapperExamples.NormalizeNotIdempotent | src/mapper.py:16 | "desc" normalises to "description", which normalises to "descriptionription": normalising twice differs from once |
| Mapper.BestScore | src/mapper.py:62-66 | the best score bounds every choice's score and is attained by one of them |
| Mapper.Ties | src/mapper.py:62-66 | the tied choices all come from the choices and score exactly the best; there is at least one when the best is attained |
| Mapper.ExtractOne | src/mapper.py:62-66 | the chosen choice is one of the choices, its score is returned, and no choice scores higher |
| Mapper.NormIndexGet | src/mapper.py:49-50 | the normalised index has exactly the normal forms as keys, each mapped to the last tag with that form |
| Mapper.ExactMatchWins | src/mapper.py:55-58 | a column whose normal form equals some tag's is bound to the last such tag, whatever the scorer and threshold |
| Mapper.FuzzyMatch | src/mapper.py:60-71 | with no exact match, the column is unbound iff every tag scores below the threshold; otherwise it is bound to an input tag with the best score, which reaches the threshold |
| Mapper.MatchColumn | src/mapper.py:52-71 | one column's binding: its contract is carried by `Mapper.ExactMatchWins` (an exact normal-form match binds the last tag with that form) and `Mapper.FuzzyMatch` (otherwise bound iff the best score reaches the threshold) |
| Mapper.MatchedTagIsInput | src/mapper.py:56-71 | a column is only ever bound to one of the original, un-normalised tags |
| Mapper.MapColumnsGet | src/mapper.py:52-73 | the result binds exactly the input columns, each to its own match, with no key twice |
| Mapper.MapColumnsEntries | src/mapper.py:52-73 | every entry pairs an input column with an input tag that the column's match chose |
| Mapper.AutoMapSpec | src/mapper.py:41-73 | `auto_map` has distinct keys, binds a column iff it is an input column with a match, and binds only input tags |
| Mapper.AutoMap | src/mapper.py:41-73 | `auto_map`: its contract is carried by `Mapper.AutoMapSpec` (distinct keys, a column bound iff it matches, only input tags) and `Mapper.MapColumnsGet` (each column bound to its own match) |
| Mapper.AutoMapDegenerate | src/mapper.py:52-61 | with no columns or no tags, nothing is bound |
| Mapper.NothingToMatch | src/mapper.py:61 | with an empty index, no column is bound |
| Mapper.InteractiveMapIgnoresCurrent | src/mapper.py:75-87 | `interactive_map` does not depend on the current mapping it is given |
| Mapper.InteractiveMap | src/mapper.py:75-87 | `interactive_map`: its contract is carried by `Mapper.InteractiveMapIgnoresCurrent` (the result is `auto_map` of the columns and tags, whatever the current mapping) |
| MapperExamples.NormalizeExamples | src/mapper.py:114-131 | Project_Name/PROJECTNAME, Address/ADDRESS and Power_kW/POWER_KW share normal forms |
| MapperExamples.NormalizeRevisionNo | src/mapper.py:117 | REVISION_NO normalises to "revisionnumber" |
| MapperExamples.NormalizeIssueDate | src/mapper.py:117 | ISSUE_DATE normalises to "issuedate" |
| MapperExamples.ExampleMapsExactly | src/mapper.py:128-131 | in the example, the three exact matches hold for every scorer, and no column outside the table is bound |
| MapperExamples.DescriptionIsFuzzy | src/mapper.py:132 | "Description" has no exact match, so it is bound only through the scorer, to a tag reaching 70 |
| Text.LowerIdempotent | src/mapper.py:31 | lower-casing leaves no upper-case ASCII letter, leaves a string without one unchanged, and so is idempotent |
| Text.Lower | src/mapper.py:31 | `name.lower()` keeps the length; the rest of its contract is carried by `Text.LowerIdempotent` (no upper-case letter remains; idempotent) and `Text.LowerConcat` (it works piecewise) |
| Text.KeepWordCharsClean | src/mapper.py:32 | stripping leaves only `[a-z0-9]` |
| Text.KeepWordChars | src/mapper.py:32 | `re.sub(r'[^a-z0-9]', '', name)`: its contract is carried by `Text.KeepWordCharsClean` (only `[a-z0-9]` remains) |
| Text.ReplaceAbsent | src/mapper.py:36-37 | replacing a key that does not occur leaves the string unchanged |
| Text.Replace | src/mapper.py:36-37 | `str.replace`: its contract is carried by `Text.ReplaceAbsent` (an absent key changes nothing) and, through the synonym loop, `Mapper.GuardIsRedundant` and `Mapper.SynonymsKeepWordChars` |
| Text.PathJoin | src/filler.py:110 | an absolute second part discards the first; otherwise the result is the first part, then exactly one "/" unless the first part is empty or already ends in "/", then the second part |
| Dxf.FindAttrib | src/filler.py:72-73 | the position of the first attribute with the tag; none iff no attribute has it |
| OrderedDict.PutGet | src/mapper.py:57 | after `d[k] = v`, `k` reads `v` and every other key reads as before |
| OrderedDict.PutKeys | src/io_manager.py:91-93 | `d[k] = v` appends a new key and keeps the key order when the key exists |
| Filler.ComputeAttribBbox | src/filler.py:18-44 | the box is five text heights wide and one high, centred on the attribute's insertion point |
| Filler.BboxIgnoresTransform | src/filler.py:32-42 | the box ignores the block's position, rotation and scale, the alignment and the text |
| Filler.Target | src/filler.py:66-73 | a mapping entry targets an attribute iff the row has a value for the column and the reference has an attribute with the tag; it targets the first such attribute |
| Filler.FillStep | src/filler.py:64-93 | one mapping entry sets the target's text, leaves every other attribute alone, and records a change iff the text differed, with the attribute's handle, box, tag, value and block name |
| Filler.FillInsert | src/filler.py:64-93 | filling a reference changes only attribute texts; there is at most one record per mapping entry, and no record means no change |
| Filler.FillInsertText | src/filler.py:64-81 | each attribute ends with the value of the last mapping entry that writes it, or its old text |
| Filler.FillInsertRecords | src/filler.py:84-93 | every record names a mapping entry's tag, the value its column has, the reference's name, and the written attribute's handle and box |
| Filler.FillInsertSatisfies | src/filler.py:64-81 | with a consistent mapping, every targeted attribute ends up holding its entry's value |
| Filler.FillSatisfiedNoop | src/filler.py:79 | when every target already holds its value, filling changes nothing and records nothing |
| Filler.FillInsertIdempotent | src/filler.py:79-81 | with a consistent mapping, filling the result again changes nothing and records nothing |
| Filler.InconsistentNotIdempotent | src/filler.py:64-81 | two columns writing one tag with different values: the later wins, and a second fill records both writes again |
| Filler.FillEntities | src/filler.py:62 | filling model space keeps the number of entities |
| Filler.FillEntitiesShape | src/filler.py:62 | other entities are unchanged and each block reference keeps everything but its attribute texts |
| Filler.FillEntitiesUnchanged | src/filler.py:62-93 | no record means model space is unchanged |
| Filler.FillEntitiesBound | src/filler.py:62-93 | there are at most (block references × mapping entries) records |
| Filler.FillEntitiesConcat | src/filler.py:62 | references are filled independently: a split of model space splits the result and the records, in order |
| Filler.FillEmptyMapping | src/filler.py:64 | an empty mapping changes nothing and records nothing |
| Filler.FillEntitiesRecords | src/filler.py:87-93 | every record of a drawing was made for one of its block references |
| Filler.FillDocument | src/filler.py:46-95 | the block definitions are unchanged, model space keeps its size, the records are bounded, and no record means no change |
| Filler.FillDocumentText | src/filler.py:62-81 | each attribute of each model-space reference ends with its last writer's value or its old text |
| Filler.FillDocumentIdempotent | src/filler.py:46-95 | with a consistent mapping, filling the filled drawing again changes nothing and records nothing |
| Filler.OutputName | src/filler.py:121-122 | the file name starts with the project name and an underscore, and ends in ".dwg" |
| Filler.OutputNameInjective | src/filler.py:121-122 | the file name determines the project name and the row label: different labels never collide |
| Filler.AbsoluteProjectNameEscapes | src/filler.py:121-122 | an absolute project name discards the output directory |
| Filler.LabelNotPosition | src/filler.py:110-122 | names use the index label plus one, not the position; a missing name gives "Project" and a None cell gives "None" |
| Filler.RunRow | src/filler.py:106-136 | with the fill taken never to raise, a row succeeds iff the template loads and the filled drawing saves; success records the path, no error and the record count; failure records no path, count 0 and the error: the load error when loading failed, the save error when saving failed |
| Filler.BatchRows | src/filler.py:106-136 | one result per row, in row order, labelled with the row's index |
| Filler.BatchFill | src/filler.py:97-138 | a failure to create the output directory ends the call before any row, with its error; otherwise the result is the row loop's list, one result per row |
| Filler.BatchRowsConcat | src/filler.py:106-136 | with the file system fixed for the run, rows are isolated: the results for a split of the rows are the results of the parts |
| Filler.BatchRowsAt | src/filler.py:106-136 | with the file system fixed for the run, the result at each position is the outcome of that row alone |
| Filler.BatchMissingTemplate | src/filler.py:112-128 | a missing template fails every row with the not-found message, and every row is still visited |
| IoManager.LoadDwg | src/io_manager.py:12-26 | a load succeeds iff the path exists and the library reads it; a missing path, a structure error and any other error each get their own message |
| IoManager.LoadDwgChecksPathFirst | src/io_manager.py:16-17 | a missing path is reported without asking the library |
| IoManager.SaveDwg | src/io_manager.py:63-70 | a save succeeds iff the library saves in version AC1021; a failure carries the output path |
| IoManager.SaveDwgUsesDefaultVersion | src/io_manager.py:63 | saving only ever asks for version AC1021 |
| IoManager.FormatBySuffix | src/io_manager.py:35-50 | whatever precedes it, the suffix in any case picks the reader: ".XLSX" and ".xls" give Excel, ".Csv" CSV, ".json" JSON, and ".txt" none |
| IoManager.FormatIgnoresCase | src/io_manager.py:35 | the format does not depend on the case of the path |
| IoManager.FormatOf | src/io_manager.py:35-50 | the reader is Excel iff the lower-cased path ends in ".xlsx" or ".xls", CSV iff it ends in ".csv" and not those, JSON iff ".json" and none of the others, and none otherwise |
| IoManager.ReadRaw | src/io_manager.py:37-50 | the reader call for the format: its contract is carried by `IoManager.ReadTableCsv` (cp1251 only after a decoding error), `IoManager.ReadTableUnsupported` and `IoManager.ReadTableOk` |
| IoManager.EnsureDirectory | src/io_manager.py:72-76 | `os.makedirs(path, exist_ok=True)`, a call into the file system: its consequence is carried by `Filler.BatchFill` (a failure stops the batch before any row) |
| IoManager.KeepRows | src/io_manager.py:53 | the kept rows are exactly the rows with some value, and no more than the input |
| IoManager.DropEmptyRows | src/io_manager.py:53 | `dropna(how='all')` keeps the columns and exactly the rows with at least one value |
| IoManager.KeepRowsConcat | src/io_manager.py:53 | dropping empty rows keeps their order |
| IoManager.ReadTable | src/io_manager.py:28-61 | a missing path gives the not-found message; a success has an existing path, a supported suffix, is non-empty, and has no empty row; every other error carries the wrapping prefix |
| IoManager.ReadTableOk | src/io_manager.py:53-58 | a successful read is the reader's table with the empty rows dropped |
| IoManager.ReadTableUnsupported | src/io_manager.py:49-50 | an unsupported suffix is an error whatever the readers do |
| IoManager.ReadTableAllEmpty | src/io_manager.py:53-56 | a table whose every row is empty is an error |
| IoManager.ReadTableCsv | src/io_manager.py:41-46 | CSV is read as UTF-8 first, as cp1251 only after a decoding error, and never by the other readers |
| IoManager.BlockPairs | src/io_manager.py:86-93 | a skipped block contributes no pair; any other block pairs each of its tags with its name |
| IoManager.AttdefPairsMembers | src/io_manager.py:84-93 | a (tag, block) pair is visited iff the block is not skipped and defines the tag |
| IoManager.HarvestGet | src/io_manager.py:89-93 | each tag maps to all block names paired with it, in order; a tag is present iff it is paired at least once |
| IoManager.HarvestKeys | src/io_manager.py:91-92 | the tags appear in order of first appearance |
| IoManager.GetDxfAttributesSpec | src/io_manager.py:78-95 | a tag is present iff some non-skipped block defines it, with a non-empty list of the defining block names, one per definition |
| IoManager.GetDxfAttributesIgnoresSkipped | src/io_manager.py:86-87 | inserting a layout, anonymous or definition-less block anywhere changes nothing |
| IoManager.GetDxfAttributes | src/io_manager.py:78-95 | `get_dxf_attributes`: its contract is carried by `IoManager.GetDxfAttributesSpec`, `IoManager.HarvestGet` (each tag to its block names in order) and `IoManager.HarvestKeys` (tags in order of first appearance) |
| IoManager.Dedup | src/io_manager.py:91-92 | the first appearances hold exactly the input's elements, each once |
| Gui.UnusedTags | src/gui.py:66-68 | the unused tags are exactly the tags no mapping entry uses |
| Gui.UnusedTagsOrder | src/gui.py:66-68 | the unused tags keep the tags' order with one entry per occurrence: those of a concatenation are those of its parts, in order |
| Gui.UnusedTagsSingle | src/gui.py:66-68 | a single tag is listed iff no mapping entry uses it |
| Gui.MappingTable | src/gui.py:54-70 | one line per column in order, then one "Unused DWG Attr" line per unused tag, carrying those tags in order |
| Gui.MappingTableColumns | src/gui.py:60-63 | a column line reads "Mapped" with its tag iff the column is mapped, and "Unmapped" with "---" otherwise |
| Gui.MappingTableCoversTags | src/gui.py:58-68 | a tag has an "Unused DWG Attr" line iff no mapping entry uses it |
| Gui.InitRows | src/gui.py:208-211 | the dialog has one row per column, in order, showing the column's current tag, or an empty string when it has none |
| Gui.ComboEdit | src/gui.py:252-262 | a combo change sets the selected row's attribute and no other; with no row selected (-1) nothing changes |
| Gui.NonEmptyRows | src/gui.py:267-269 | the saved rows are exactly those with a non-empty attribute |
| Gui.SaveManualGet | src/gui.py:264-271 | for distinct columns, the saved mapping binds a column iff its row's attribute is non-empty |
| Gui.SaveManualKeys | src/gui.py:266-269 | a saved mapping binds only columns of the rows |
| Gui.SaveManual | src/gui.py:266-269 | the save loop: its contract is carried by `Gui.SaveManualGet` (a column bound iff its attribute is non-empty) and `Gui.SaveManualKeys` (only the rows' columns) |
| Gui.SaveWithoutEdits | src/gui.py:208-211 | saving without edits keeps the current mapping on the data columns, minus empty tags |
| Gui.ComboWithoutSelection | src/gui.py:253 | a combo change before any selection is ignored |
| Gui.SessionWithoutEdits | src/gui.py:239-274 | without combo changes, the dialog saves its initial rows or nothing |
| Gui.ManualSession | src/gui.py:237-274 | the dialog's event loop: its contract is carried by `Gui.SessionWithoutEdits`, `Gui.ComboWithoutSelection` and `Gui.ManualMappingCancelled` |
| Gui.LoadTemplate | src/gui.py:72-97 | a template load keeps the data and the records. On success the loaded drawing is kept. With data loaded, the mapping becomes `auto_map` of the columns and the template's tags, and the table shows it. Without data, the mapping stays and the table lists only the tags as unused. A failure drops the template and changes nothing else |
| Gui.LoadData | src/gui.py:99-117 | a data load keeps the template and the records. On success the table read is kept. With a template loaded, the mapping becomes `auto_map` of its columns and the template's tags, and the table shows it. Without a template, the mapping and the table stay. A failure drops the data and changes nothing else |
| Gui.LoadBothAutoMaps | src/gui.py:84-87 | loading both files, in either order, leaves the automatic mapping of the columns to the template's tags |
| Gui.ManualMapping | src/gui.py:198-276 | the dialog needs both files loaded and changes only the mapping and the table |
| Gui.ManualMappingCancelled | src/gui.py:240-242 | closing or cancelling first keeps the state |
| Gui.Preview | src/gui.py:119-148 | a refused guard changes nothing; a preview needs the guard, a loadable template and a first row; it shows the template filled with the first row, keeps that fill's records, and highlights each record's box; a missing first row or a load error is reported and changes nothing |
| Gui.PreviewIsFirstRow | src/gui.py:128-140 | the preview is what generation writes for the first row: that row's file is saved iff the previewed drawing saves, and then its count of changes is the number of highlighted records |
| Gui.CanRun | src/gui.py:152-155 | the guard of preview (also `src/gui.py:121`) and generation: its meaning is stated by `Gui.Preview` and `Gui.Generate` (a refused guard changes nothing) |
| Gui.GenerateAsWritten | src/gui.py:150-155 | generation is refused without a template, data and a non-empty mapping |
| Gui.GenerateAsWrittenCrashes | src/gui.py:164-167 | as written, every run that creates the folder writes all the files and then fails on reading the report |
| Gui.Generate | src/gui.py:150-167 | refused without a template, data and a mapping, and stopped without a folder; otherwise a report is given iff the folder can be created, counting the table's rows, the successful results and the failed results |
| Gui.SuccessPlusFailed | src/filler.py:126-136 | every row result is a success or a failure: the two counts add up to the number of results |
| Gui.GenerateCounts | src/gui.py:164-167 | the corrected report counts every row, and counts a row as a success iff its file was written |
| Gui.SuccessfulRows | src/gui.py:166 | the successful results are exactly those with an output path |
| Gui.CountSuccessFilter | src/gui.py:166 | counting successes equals counting written files |
| Logger.RenderAppend | src/logger.py:46 | the rendered entries follow the context's order: one more entry adds one more "k: v" at the end |
| Logger.RenderEntries | src/logger.py:46 | one rendered entry per context entry; the order and content are carried by `Logger.RenderAppend` |
| Logger.FormatMessage | src/logger.py:44-48 | a missing or empty context leaves the message; otherwise the message is followed by " (" and the text ends with ")" |
| Logger.FormatOneEntry | src/logger.py:45-47 | one entry renders as "message (k: v)" |
| Logger.FormatAppendEntry | src/logger.py:46 | one more entry adds " \| k: v" before the closing parenthesis |

## Left out

- Unicode: `str.lower` is modelled on ASCII letters only; other characters are unchanged.
- Mapper.ExtractOne: `fuzz.ratio` and `extractOne`'s choice among equal best scores are parameters, not the library's algorithm. Everything proved holds for every scorer and every tie-break.
- MapperExamples.DescriptionIsFuzzy: the example's comment expects "Description -> DESC" and "Date_of_Issue -> ISSUE_DATE". Both depend on the scorer, so the model proves only what holds for every scorer.
- `save_map` and `load_map` (JSON persistence of a mapping) and the `__init__.py` rewriting at import time: file I/O outside the mapping logic.
- Values: pandas cells are strings or None, and `str(value)` of numbers and dates is taken to be the string already in the table.
- NaN: pandas reads a blank Excel or CSV cell as NaN, and `value is None` (`src/filler.py:68`) is false for it. The program therefore writes the text "nan" into the attribute (`src/filler.py:76-81`) and names the file `nan_<k>.dwg` (`src/filler.py:121-122`). The model has no NaN: a missing cell is None, which `dropna` counts as empty, which filling skips and which the file name renders as "None". The model does not reproduce the "nan" text or file name.
- Row labels: `Table.rows` carries integer index labels. `pd.read_json` on an object of objects gives string labels, and then `index+1` at `src/filler.py:110`, outside the per-row `try`, raises and aborts the whole batch. Non-integer labels are not modelled.
- Filler.RunRow: `fill_document` is taken never to raise on a drawing the library has loaded, so `Filler.FillDocument` is total and a row fails only in the load or the save. In the program a fill exception (from `str(value)` or the library's attribute update, `src/filler.py:117`) is caught by the per-row `except` at `src/filler.py:126-128` and recorded as FAILED with its message; that branch is not modelled.
- Filler.BatchRowsConcat: the file system (`IoManager.Io`) is one fixed value for the run, so a save never changes what a later load sees. In the program `save_dwg` (`src/filler.py:124`) can overwrite the template that the next row reloads (`src/filler.py:114`), for example with template `/out/Project_1.dwg`, output directory `/out` and no PROJECT_NAME column. Row isolation assumes no output path equals the template path.
- Filler.BatchRowsAt: "that row alone" rests on the same fixed file system; a save over the template is not modelled.
- `str(e)` of library exceptions is the message carried by `LibError`. The encodings are arguments of the CSV reader.
- Filler.ComputeAttribBbox: real numbers stand for floats; rounding is not modelled.
- Text.PathJoin: `os.path.join` is modelled with POSIX rules; Windows drive letters are not.
- Gui.ManualSession: the window's events are a finite list; running out of events is read as closing the window.
- The truthiness of `current_doc`: a loaded drawing is taken to be truthy.
- Rendering, highlighting and popups: `renderer.py` (the drawing canvas, overlays and highlight toggle), `exporter.py`, `autocad_bridge.py` and `main.py` are not part of this model. A rendering failure in preview or template loading is not modelled.
- The log output: `AppLogger`'s handlers and files. Only `_format_message` is modelled.
- Concurrency and the window layout are not modelled.

## Findings

| source | as written | input that shows it | evidently intended | confidence | as-written member | corrected member |
|---|---|---|---|---|---|---|
| src/gui.py:164-167 | `report['success_count']` is read from the list that `batch_fill` returns | any generation with a template, data, a non-empty mapping and a folder that can be created | report the numbers of successful, failed and all rows, computed from the list | not executed | Gui.GenerateAsWrittenCrashes | Gui.GenerateCounts |

=== FILE: dxf.dfy ===
/** The part of a DXF/DWG drawing the program reads and writes: block
    references (INSERT entities) in model space with their attributes, and
    the block definitions with their attribute definitions. */
module Dxf {
  import opened Wrappers

  datatype Point = Point(x: real, y: real)

  /** An ATTRIB entity attached to an INSERT: `dxf.handle`, `dxf.tag`,
      `dxf.text`, `dxf.insert` (its insertion point), `dxf.height` and the
      two alignment codes. */
  datatype Attrib = Attrib(handle: string, tag: string, text: string, insert: Point,
                           height: real, halign: int, valign: int)

  /** An INSERT entity: the referenced block name, the block transform and
      the attached attributes in order. */
  datatype Insert = Insert(name: string, position: Point, rotation: real,
                           xscale: real, yscale: real, attribs: seq<Attrib>)

  /** A model-space entity: an INSERT, or anything else. */
  datatype Entity = InsertEntity(insert: Insert) | OtherEntity(dxftype: string, handle: string)

  /** A block definition: its name, whether it is a layout block or an
      anonymous block, and the tags of its ATTDEF entities in order. */
  datatype BlockDef = BlockDef(name: string, isLayout: bool, isAnonymous: bool, attdefTags: seq<string>)

  datatype Drawing = Drawing(modelspace: seq<Entity>, blocks: seq<BlockDef>)

  /** `insert.has_attrib(tag)` / `insert.get_attrib(tag)`: the position of
      the first attribute whose tag equals `tag` exactly. */
  function FindAttrib(attribs: seq<Attrib>, tag: string): (r: Option<nat>)
    ensures r.Some? ==> r.value < |attribs| && attribs[r.value].tag == tag &&
                        forall j :: 0 <= j < r.value ==> attribs[j].tag != tag
    ensures r.None? <==> forall j :: 0 <= j < |attribs| ==> attribs[j].tag != tag
  {
    if attribs == [] then None
    else if attribs[0].tag == tag then Some(0)
    else
      match FindAttrib(attribs[1..], tag)
      case None => None
      case Some(i) => Some(i + 1)
  }

  /** Two attribute lists with the same tags, position by position. */
  predicate SameTags(a: seq<Attrib>, b: seq<Attrib>) {
    |a| == |b| && forall i :: 0 <= i < |a| ==> a[i].tag == b[i].tag
  }

  /** The attribute lookup only looks at tags. */
  lemma FindAttribSameTags(a: seq<Attrib>, b: seq<Attrib>, tag: string)
    requires SameTags(a, b)
    ensures FindAttrib(a, tag) == FindAttrib(b, tag)
  {
  }
}

=== FILE: filler.dfy ===
/** Writing one table row into the attributes of a drawing, and the batch
    run over all rows (`Filler` in src/filler.py). */
module Filler {
  import opened Wrappers
  import opened OrderedDict
  import opened Text
  import opened Dxf
  import opened IoManager

  // ---------------------------------------------------------------------
  // Bounding boxes

  /** `(xmin, ymin, xmax, ymax)`. */
  datatype Bbox = Bbox(xmin: real, ymin: real, xmax: real, ymax: real)

  /** `_compute_attrib_bbox`: a box five text heights wide and one high,
      centred on the attribute's insertion point. */
  function ComputeAttribBbox(a: Attrib, ins: Insert): (b: Bbox)
    ensures b.xmax - b.xmin == 5.0 * a.height
    ensures b.ymax - b.ymin == a.height
    ensures b.xmin + b.xmax == 2.0 * a.insert.x
    ensures b.ymin + b.ymax == 2.0 * a.insert.y
  {
    var width := a.height * 5.0;
    Bbox(a.insert.x - width / 2.0, a.insert.y - a.height / 2.0,
         a.insert.x + width / 2.0, a.insert.y + a.height / 2.0)
  }

  /** The box depends on the attribute's insertion point and height only:
      not on the block reference (its position, rotation and scale), the
      alignment codes or the text. */
  lemma BboxIgnoresTransform(a: Attrib, ins: Insert, a': Attrib, ins': Insert)
    requires a'.insert == a.insert && a'.height == a.height
    ensures ComputeAttribBbox(a, ins) == ComputeAttribBbox(a', ins')
  {
  }

  // ---------------------------------------------------------------------
  // Filling one row

  /** One entry of `changed_entities`. */
  datatype Changed = Changed(handle: string, bbox: Bbox, tag: string, newValue: string, blockName: string)

  /** Column name to attribute tag, in the dictionary's order. */
  type Mapping = Dict<string, string>

  /** `ins'` is `ins` with at most the texts of its attributes changed. */
  predicate Kept(ins: Insert, ins': Insert) {
    && ins'.(attribs := ins.attribs) == ins
    && |ins'.attribs| == |ins.attribs|
    && forall k :: 0 <= k < |ins.attribs| ==> ins'.attribs[k] == ins.attribs[k].(text := ins'.attribs[k].text)
  }

  lemma KeptTrans(a: Insert, b: Insert, c: Insert)
    requires Kept(a, b) && Kept(b, c)
    ensures Kept(a, c)
  {
  }

  lemma KeptSameTags(a: Insert, b: Insert)
    requires Kept(a, b)
    ensures SameTags(a.attribs, b.attribs)
  {
    assert forall k :: 0 <= k < |a.attribs| ==> b.attribs[k].tag == a.attribs[k].tag;
  }

  /** The attribute of `ins` that the mapping entry `(col, tag)` writes with
      `row`, and the value: present only when the row has a value for the
      column and the block reference has an attribute with the tag. */
  function Target(ins: Insert, col: string, tag: string, row: Row): (r: Option<(nat, string)>)
    ensures r.Some? ==> r.value.0 < |ins.attribs| && ins.attribs[r.value.0].tag == tag &&
                        Cell(row, col) == Some(r.value.1)
    ensures r.None? <==> Cell(row, col).None? || forall k :: 0 <= k < |ins.attribs| ==> ins.attribs[k].tag != tag
  {
    match Cell(row, col)
    case None => None
    case Some(v) =>
      match FindAttrib(ins.attribs, tag)
      case None => None
      case Some(j) => Some((j, v))
  }

  /** One pass of the inner loop of `fill_document`: the mapped attribute
      is set to the row's value, and a record is emitted when that changed
      its text. */
  function FillStep(ins: Insert, col: string, tag: string, row: Row): (r: (Insert, seq<Changed>))
    ensures Kept(ins, r.0)
    ensures Target(ins, col, tag, row).None? ==> r == (ins, [])
    ensures Target(ins, col, tag, row).Some? ==>
              var (j, v) := Target(ins, col, tag, row).value;
              && r.0.attribs[j].text == v
              && (forall k :: 0 <= k < |ins.attribs| && k != j ==> r.0.attribs[k] == ins.attribs[k])
              && (|r.1| == 1 <==> ins.attribs[j].text != v)
              && (r.1 == [] ==> r.0 == ins)
              && (forall c :: c in r.1 ==>
                    c == Changed(ins.attribs[j].handle, ComputeAttribBbox(ins.attribs[j], ins), tag, v, ins.name))
    ensures |r.1| <= 1
  {
    match Target(ins, col, tag, row)
    case None => (ins, [])
    case Some((j, v)) =>
      var a := ins.attribs[j];
      if a.text != v then
        var a' := a.(text := v);
        assert ComputeAttribBbox(a', ins) == ComputeAttribBbox(a, ins);
        (ins.(attribs := ins.attribs[j := a']),
         [Changed(a.handle, ComputeAttribBbox(a', ins), tag, v, ins.name)])
      else
        (ins, [])
  }

  /** The inner loop of `fill_document` for one block reference: the
      mapping's entries in order, each seeing the texts the earlier ones
      wrote. */
  function FillInsert(ins: Insert, m: Mapping, row: Row): (r: (Insert, seq<Changed>))
    ensures Kept(ins, r.0)
    ensures |r.1| <= |m|
    ensures r.1 == [] ==> r.0 == ins
    decreases |m|
  {
    if m == [] then (ins, [])
    else
      var (i1, c1) := FillStep(ins, m[0].0, m[0].1, row);
      var (i2, c2) := FillInsert(i1, m[1..], row);
      KeptTrans(ins, i1, i2);
      (i2, c1 + c2)
  }

  /** The outer loop of `fill_document`: the block references of model
      space in order; every other entity is left as it is. */
  function FillEntities(es: seq<Entity>, m: Mapping, row: Row): (r: (seq<Entity>, seq<Changed>))
    ensures |r.0| == |es|
  {
    if es == [] then ([], [])
    else
      var head := FillEntity(es[0], m, row);
      var rest := FillEntities(es[1..], m, row);
      ([head.0] + rest.0, head.1 + rest.1)
  }

  /** One entity of model space: a block reference is filled, anything
      else is left as it is. */
  function FillEntity(e: Entity, m: Mapping, row: Row): (r: (Entity, seq<Changed>))
    ensures r.1 == [] ==> r.0 == e
  {
    match e
    case OtherEntity(_, _) => (e, [])
    case InsertEntity(ins) =>
      var (ins', c) := FillInsert(ins, m, row);
      (InsertEntity(ins'), c)
  }

  lemma MulSucc(n: nat, k: nat)
    ensures (1 + n) * k == k + n * k
  {
  }

  /** No record means no entity changed. */
  lemma {:induction false} FillEntitiesUnchanged(es: seq<Entity>, m: Mapping, row: Row)
    ensures FillEntities(es, m, row).1 == [] ==> FillEntities(es, m, row).0 == es
  {
    if es != [] {
      FillEntitiesUnchanged(es[1..], m, row);
      var head, rest := FillEntity(es[0], m, row), FillEntities(es[1..], m, row);
      if head.1 + rest.1 == [] {
        assert head.1 == [] && rest.1 == [];
        assert [es[0]] + es[1..] == es;
      }
    }
  }

  /** At most one record per block reference and mapping entry. */
  lemma {:induction false} FillEntitiesBound(es: seq<Entity>, m: Mapping, row: Row)
    ensures |FillEntities(es, m, row).1| <= InsertCount(es) * |m|
  {
    if es != [] {
      var n := InsertCount(es[1..]);
      FillEntitiesBound(es[1..], m, row);
      if es[0].InsertEntity? {
        MulSucc(n, |m|);
      } else {
        assert InsertCount(es) == n;
      }
    }
  }

  /** Filling keeps every entity in its place: other entities unchanged,
      block references with at most their attribute texts changed. */
  lemma {:induction false} FillEntitiesShape(es: seq<Entity>, m: Mapping, row: Row, i: int)
    requires 0 <= i < |es|
    ensures var out := FillEntities(es, m, row).0;
            && out[i].InsertEntity? == es[i].InsertEntity?
            && (es[i].OtherEntity? ==> out[i] == es[i])
            && (es[i].InsertEntity? ==> out[i].insert == FillInsert(es[i].insert, m, row).0)
            && (es[i].InsertEntity? ==> Kept(es[i].insert, out[i].insert))
  {
    if i > 0 {
      FillEntitiesShape(es[1..], m, row, i - 1);
    }
  }

  /** The number of block references among `es`. */
  function InsertCount(es: seq<Entity>): nat {
    if es == [] then 0 else (if es[0].InsertEntity? then 1 else 0) + InsertCount(es[1..])
  }

  /** `fill_document(doc, mapping, row)`: the same drawing with the mapped
      attributes filled in, and the records of the changed ones. */
  function FillDocument(doc: Drawing, m: Mapping, row: Row): (r: (Drawing, seq<Changed>))
    ensures r.0.blocks == doc.blocks
    ensures |r.0.modelspace| == |doc.modelspace|
    ensures |r.1| <= InsertCount(doc.modelspace) * |m|
    ensures r.1 == [] ==> r.0 == doc
  {
    FillEntitiesBound(doc.modelspace, m, row);
    FillEntitiesUnchanged(doc.modelspace, m, row);
    var (es, cs) := FillEntities(doc.modelspace, m, row);
    (doc.(modelspace := es), cs)
  }

  // ---------------------------------------------------------------------
  // What filling writes

  /** The value the last mapping entry that writes attribute `j` gives it,
      if any entry does: an independent reading of the text `fill_document`
      leaves in that attribute. */
  function LastWrite(attribs: seq<Attrib>, m: Mapping, row: Row, j: nat): (r: Option<string>)
    ensures r.Some? ==> exists k :: 0 <= k < |m| && Cell(row, m[k].0) == r &&
                                   FindAttrib(attribs, m[k].1) == Some(j)
    ensures r.None? ==> forall k :: 0 <= k < |m| && Cell(row, m[k].0).Some? ==> FindAttrib(attribs, m[k].1) != Some(j)
    decreases |m|
  {
    if m == [] then None
    else
      assert forall k :: 1 <= k < |m| ==> m[k] == m[1..][k - 1];
      match LastWrite(attribs, m[1..], row, j)
      case Some(v) => Some(v)
      case None =>
        if Cell(row, m[0].0).Some? && FindAttrib(attribs, m[0].1) == Some(j) then Cell(row, m[0].0) else None
  }

  lemma {:induction false} LastWriteSameTags(a: seq<Attrib>, b: seq<Attrib>, m: Mapping, row: Row, j: nat)
    requires SameTags(a, b)
    ensures LastWrite(a, m, row, j) == LastWrite(b, m, row, j)
    decreases |m|
  {
    if m != [] {
      LastWriteSameTags(a, b, m[1..], row, j);
      FindAttribSameTags(a, b, m[0].1);
    }
  }

  /** After filling a block reference, each attribute holds the value of
      the last mapping entry that writes it, or its old text if none does. */
  lemma {:induction false} FillInsertText(ins: Insert, m: Mapping, row: Row, j: nat)
    requires j < |ins.attribs|
    ensures FillInsert(ins, m, row).0.attribs[j].text == LastWrite(ins.attribs, m, row, j).GetOr(ins.attribs[j].text)
    decreases |m|
  {
    if m != [] {
      var (i1, c1) := FillStep(ins, m[0].0, m[0].1, row);
      FillInsertText(i1, m[1..], row, j);
      KeptSameTags(ins, i1);
      LastWriteSameTags(ins.attribs, i1.attribs, m[1..], row, j);
      assert FillInsert(ins, m, row).0 == FillInsert(i1, m[1..], row).0;
    }
  }

  /** What a record emitted for block reference `ins` says: an entry of
      the mapping whose column has the value written, the attribute of `ins`
      with that tag (its handle and box), and the block name. */
  predicate RecordOf(ins: Insert, m: Mapping, row: Row, c: Changed) {
    && c.blockName == ins.name
    && (exists k :: 0 <= k < |m| && m[k].1 == c.tag && Cell(row, m[k].0) == Some(c.newValue))
    && FindAttrib(ins.attribs, c.tag).Some?
    && var j := FindAttrib(ins.attribs, c.tag).value;
       c.handle == ins.attribs[j].handle && c.bbox == ComputeAttribBbox(ins.attribs[j], ins)
  }

  lemma RecordOfKept(ins: Insert, ins': Insert, m: Mapping, m': Mapping, row: Row, c: Changed)
    requires Kept(ins, ins') && RecordOf(ins', m', row, c)
    requires forall e :: e in m' ==> e in m
    ensures RecordOf(ins, m, row, c)
  {
    KeptSameTags(ins, ins');
    FindAttribSameTags(ins.attribs, ins'.attribs, c.tag);
    var k :| 0 <= k < |m'| && m'[k].1 == c.tag && Cell(row, m'[k].0) == Some(c.newValue);
    assert m'[k] in m;
    var k' :| 0 <= k' < |m| && m[k'] == m'[k];
    assert m[k'].1 == c.tag && Cell(row, m[k'].0) == Some(c.newValue);
    var j := FindAttrib(ins.attribs, c.tag).value;
    assert ins'.attribs[j] == ins.attribs[j].(text := ins'.attribs[j].text);
  }

  /** Every record carries the tag of a mapping entry, the value its column
      has in the row, the name of the block reference, and the handle and
      box of the attribute written. */
  lemma {:induction false} FillInsertRecords(ins: Insert, m: Mapping, row: Row)
    ensures forall c :: c in FillInsert(ins, m, row).1 ==> RecordOf(ins, m, row, c)
    decreases |m|
  {
    if m != [] {
      var (i1, c1) := FillStep(ins, m[0].0, m[0].1, row);
      var (i2, c2) := FillInsert(i1, m[1..], row);
      FillInsertRecords(i1, m[1..], row);
      forall c | c in c1 + c2 ensures RecordOf(ins, m, row, c) {
        if c in c1 {
          var (j, v) := Target(ins, m[0].0, m[0].1, row).value;
          FindAttribSameTags(ins.attribs, ins.attribs, c.tag);
          assert m[0].1 == c.tag && Cell(row, m[0].0) == Some(c.newValue);
        } else {
          assert forall e :: e in m[1..] ==> e in m;
          RecordOfKept(ins, i1, m, m[1..], row, c);
        }
      }
    }
  }

  /** Entries of the mapping that give the same tag a value agree on it:
      no two columns with a value target one tag with different texts. */
  predicate Consistent(m: Mapping, row: Row) {
    forall a, b ::
      (0 <= a < |m| && 0 <= b < |m| && m[a].1 == m[b].1 && Cell(row, m[a].0).Some? && Cell(row, m[b].0).Some?)
      ==> Cell(row, m[a].0) == Cell(row, m[b].0)
  }

  /** Every attribute a mapping entry would write already holds the value. */
  predicate Satisfied(ins: Insert, m: Mapping, row: Row) {
    forall k :: 0 <= k < |m| && Target(ins, m[k].0, m[k].1, row).Some? ==>
      var (j, v) := Target(ins, m[k].0, m[k].1, row).value;
      ins.attribs[j].text == v
  }

  /** Filling a block reference whose attributes already hold the values
      changes nothing and emits nothing. */
  lemma {:induction false} FillSatisfiedNoop(ins: Insert, m: Mapping, row: Row)
    requires Satisfied(ins, m, row)
    ensures FillInsert(ins, m, row) == (ins, [])
    decreases |m|
  {
    if m != [] {
      assert Target(ins, m[0].0, m[0].1, row).Some? ==> ins.attribs[Target(ins, m[0].0, m[0].1, row).value.0].text == Target(ins, m[0].0, m[0].1, row).value.1;
      assert FillStep(ins, m[0].0, m[0].1, row) == (ins, []);
      assert forall k :: 0 <= k < |m| - 1 ==> m[1..][k] == m[k + 1];
      FillSatisfiedNoop(ins, m[1..], row);
    }
  }

  /** With a consistent mapping, every attribute a mapping entry writes
      ends up holding that entry's value. */
  lemma FillInsertSatisfies(ins: Insert, m: Mapping, row: Row)
    requires Consistent(m, row)
    ensures Satisfied(FillInsert(ins, m, row).0, m, row)
  {
    var out := FillInsert(ins, m, row).0;
    KeptSameTags(ins, out);
    forall k | 0 <= k < |m| && Target(out, m[k].0, m[k].1, row).Some?
      ensures out.attribs[Target(out, m[k].0, m[k].1, row).value.0].text == Target(out, m[k].0, m[k].1, row).value.1
    {
      var (j, v) := Target(out, m[k].0, m[k].1, row).value;
      FindAttribSameTags(ins.attribs, out.attribs, m[k].1);
      FillInsertText(ins, m, row, j);
      var w := LastWrite(ins.attribs, m, row, j);
      assert w.Some?;
      var k' :| 0 <= k' < |m| && Cell(row, m[k'].0) == w && FindAttrib(ins.attribs, m[k'].1) == Some(j);
      assert m[k'].1 == ins.attribs[j].tag == m[k].1;
    }
  }

  /** Filling is idempotent for a consistent mapping: filling the result
      again with the same mapping and row changes nothing and emits no
      record. */
  lemma FillInsertIdempotent(ins: Insert, m: Mapping, row: Row)
    requires Consistent(m, row)
    ensures var out := FillInsert(ins, m, row).0;
            FillInsert(out, m, row) == (out, [])
  {
    FillInsertSatisfies(ins, m, row);
    FillSatisfiedNoop(FillInsert(ins, m, row).0, m, row);
  }

  /** Two columns with different values for one tag: each fill writes the
      later value back over the earlier one, so a second fill emits
      records again. */
  lemma InconsistentNotIdempotent(a: Attrib)
    requires a.tag == "T" && a.text == ""
    ensures var ins := Insert("B", Point(0.0, 0.0), 0.0, 1.0, 1.0, [a]);
            var m := [("c1", "T"), ("c2", "T")];
            var row := map["c1" := Some("x"), "c2" := Some("y")];
            var out := FillInsert(ins, m, row).0;
            out.attribs[0].text == "y" && |FillInsert(out, m, row).1| == 2
  {
    var ins := Insert("B", Point(0.0, 0.0), 0.0, 1.0, 1.0, [a]);
    var m := [("c1", "T"), ("c2", "T")];
    var row := map["c1" := Some("x"), "c2" := Some("y")];
    assert m[1..] == [("c2", "T")] && m[1..][1..] == [];
    var (i1, r1) := FillStep(ins, "c1", "T", row);
    assert i1.attribs[0].text == "x";
    var (i2, r2) := FillStep(i1, "c2", "T", row);
    assert i2.attribs[0].text == "y";
    assert FillInsert(ins, m, row).0 == i2;
    var (j1, s1) := FillStep(i2, "c1", "T", row);
    assert |s1| == 1 && j1.attribs[0].text == "x";
    var (j2, s2) := FillStep(j1, "c2", "T", row);
    assert |s2| == 1;
  }

  // ---------------------------------------------------------------------
  // Filling a drawing

  /** Filling model space entity by entity: a split of the entities splits
      the result and the records, in entity order. */
  lemma {:induction false} FillEntitiesConcat(a: seq<Entity>, b: seq<Entity>, m: Mapping, row: Row)
    ensures FillEntities(a + b, m, row).0 == FillEntities(a, m, row).0 + FillEntities(b, m, row).0
    ensures FillEntities(a + b, m, row).1 == FillEntities(a, m, row).1 + FillEntities(b, m, row).1
  {
    if a != [] {
      var t := a[1..];
      assert (a + b)[0] == a[0] && (a + b)[1..] == t + b;
      FillEntitiesConcat(t, b, m, row);
      var head, ra, rb := FillEntity(a[0], m, row), FillEntities(t, m, row), FillEntities(b, m, row);
      assert FillEntities(a + b, m, row) == ([head.0] + (ra.0 + rb.0), head.1 + (ra.1 + rb.1));
      assert FillEntities(a, m, row) == ([head.0] + ra.0, head.1 + ra.1);
    } else {
      assert a + b == b;
    }
  }

  /** An empty mapping leaves the drawing as it is and emits nothing. */
  lemma {:induction false} FillEmptyMapping(es: seq<Entity>, row: Row)
    ensures FillEntities(es, [], row) == (es, [])
  {
    if es != [] {
      FillEmptyMapping(es[1..], row);
      if es[0].InsertEntity? {
        assert FillInsert(es[0].insert, [], row) == (es[0].insert, []);
      }
      var head := FillEntity(es[0], [], row);
      assert head == (es[0], []);
      assert FillEntities(es, [], row) == ([head.0] + es[1..], head.1 + []);
      assert [es[0]] + es[1..] == es;
      assert FillEntities(es, [], row).0 == es;
      assert FillEntities(es, [], row).1 == [];
    }
  }

  /** Every record of `fill_document` was emitted for one of the block
      references of model space and says what `RecordOf` says. */
  lemma {:induction false} FillEntitiesRecords(es: seq<Entity>, m: Mapping, row: Row)
    ensures forall c :: c in FillEntities(es, m, row).1 ==>
              exists i :: 0 <= i < |es| && es[i].InsertEntity? && RecordOf(es[i].insert, m, row, c)
  {
    if es != [] {
      FillEntitiesRecords(es[1..], m, row);
      assert forall i :: 1 <= i < |es| ==> es[i] == es[1..][i - 1];
      if es[0].InsertEntity? {
        FillInsertRecords(es[0].insert, m, row);
      }
    }
  }

  /** Each attribute of model space ends up holding the value of the last
      mapping entry that writes it, or its old text. */
  lemma FillDocumentText(doc: Drawing, m: Mapping, row: Row, i: int, j: nat)
    requires 0 <= i < |doc.modelspace| && doc.modelspace[i].InsertEntity?
    requires j < |doc.modelspace[i].insert.attribs|
    ensures var ins := doc.modelspace[i].insert;
            var out := FillDocument(doc, m, row).0.modelspace[i];
            && out.InsertEntity? && |out.insert.attribs| == |ins.attribs|
            && out.insert.attribs[j].text == LastWrite(ins.attribs, m, row, j).GetOr(ins.attribs[j].text)
  {
    FillEntitiesShape(doc.modelspace, m, row, i);
    FillInsertText(doc.modelspace[i].insert, m, row, j);
  }

  lemma {:induction false} FillEntitiesIdempotent(es: seq<Entity>, m: Mapping, row: Row)
    requires Consistent(m, row)
    ensures var out := FillEntities(es, m, row).0;
            FillEntities(out, m, row) == (out, [])
  {
    if es != [] {
      var out := FillEntities(es, m, row).0;
      FillEntitiesIdempotent(es[1..], m, row);
      if es[0].InsertEntity? {
        FillInsertIdempotent(es[0].insert, m, row);
      }
      assert out[1..] == FillEntities(es[1..], m, row).0;
    }
  }

  /** `fill_document` is idempotent for a consistent mapping: filling the
      filled drawing again returns it unchanged with no records. */
  lemma FillDocumentIdempotent(doc: Drawing, m: Mapping, row: Row)
    requires Consistent(m, row)
    ensures var out := FillDocument(doc, m, row).0;
            FillDocument(out, m, row) == (out, [])
  {
    FillEntitiesIdempotent(doc.modelspace, m, row);
  }

  // ---------------------------------------------------------------------
  // Batch generation

  datatype Status = Success | Failed

  /** One entry of the list `batch_fill` returns. */
  datatype RowResult = RowResult(rowIndex: int, status: Status, outputPath: Option<string>,
                                 error: Option<string>, changedCount: nat)

  /** `row.get('PROJECT_NAME', 'Project')` as the f-string renders it: a
      `None` cell renders as "None". */
  function ProjectName(row: Row): string {
    if "PROJECT_NAME" in row then row["PROJECT_NAME"].GetOr("None") else "Project"
  }

  /** `f"{project_name}_{index+1}.dwg"`. */
  function OutputName(row: Row, index: int): (r: string)
    ensures StartsWith(r, ProjectName(row) + "_") && EndsWith(r, ".dwg")
  {
    ProjectName(row) + "_" + IntToString(index + 1) + ".dwg"
  }

  /** The output file of the row labelled `index`. */
  function OutputPath(outDir: string, row: Row, index: int): string {
    PathJoin(outDir, OutputName(row, index))
  }

  /** One iteration of the row loop: reload the template, fill it, save
      it; any failure is caught and recorded. */
  function RunRow(io: Io, dwgPath: string, m: Mapping, outDir: string, labelled: (int, Row)): (r: RowResult)
    ensures r.rowIndex == labelled.0
    ensures r.status == Success <==>
              LoadDwg(io, dwgPath).Ok? &&
              SaveDwg(io, FillDocument(LoadDwg(io, dwgPath).value, m, labelled.1).0,
                      OutputPath(outDir, labelled.1, labelled.0)).Pass?
    ensures r.status == Success ==>
              && r.outputPath == Some(OutputPath(outDir, labelled.1, labelled.0))
              && r.error == None
              && r.changedCount == |FillDocument(LoadDwg(io, dwgPath).value, m, labelled.1).1|
    ensures r.status == Failed ==>
              && r.outputPath == None && r.changedCount == 0 && r.error.Some?
              && (LoadDwg(io, dwgPath).Err? ==> r.error == Some(LoadDwg(io, dwgPath).error))
    ensures LoadDwg(io, dwgPath).Ok? ==>
              var out := OutputPath(outDir, labelled.1, labelled.0);
              var save := SaveDwg(io, FillDocument(LoadDwg(io, dwgPath).value, m, labelled.1).0, out);
              save.Fail? ==> r.status == Failed && r.error == Some(save.error)
  {
    var (index, row) := labelled;
    match LoadDwg(io, dwgPath)
    case Err(e) => RowResult(index, Failed, None, Some(e), 0)
    case Ok(doc) =>
      var (filled, changed) := FillDocument(doc, m, row);
      var outPath := OutputPath(outDir, row, index);
      match SaveDwg(io, filled, outPath)
      case Fail(e) => RowResult(index, Failed, None, Some(e), 0)
      case Pass => RowResult(index, Success, Some(outPath), None, |changed|)
  }

  /** The row loop of `batch_fill`: one result per row, in row order. */
  function BatchRows(io: Io, dwgPath: string, m: Mapping, outDir: string, rows: seq<(int, Row)>): (r: seq<RowResult>)
    ensures |r| == |rows|
    ensures forall i :: 0 <= i < |rows| ==> r[i].rowIndex == rows[i].0
  {
    if rows == [] then []
    else [RunRow(io, dwgPath, m, outDir, rows[0])] + BatchRows(io, dwgPath, m, outDir, rows[1..])
  }

  /** `batch_fill`: the output directory is created first, outside the
      per-row error handling, so its failure ends the call before any row. */
  function BatchFill(io: Io, dwgPath: string, table: Table, m: Mapping, outDir: string): (r: Result<seq<RowResult>, string>)
    ensures r.Err? <==> EnsureDirectory(io, outDir).Fail?
    ensures r.Err? ==> r.error == EnsureDirectory(io, outDir).error
    ensures r.Ok? ==> |r.value| == |table.rows|
    ensures r.Ok? ==> r.value == BatchRows(io, dwgPath, m, outDir, table.rows)
  {
    match EnsureDirectory(io, outDir)
    case Fail(e) => Err(e)
    case Pass => Ok(BatchRows(io, dwgPath, m, outDir, table.rows))
  }

  /** Rows are isolated: no state passes from one row to the next, so the
      results for a split of the rows are the results of the parts. */
  lemma {:induction false} BatchRowsConcat(io: Io, dwgPath: string, m: Mapping, outDir: string,
                                           a: seq<(int, Row)>, b: seq<(int, Row)>)
    ensures BatchRows(io, dwgPath, m, outDir, a + b) ==
            BatchRows(io, dwgPath, m, outDir, a) + BatchRows(io, dwgPath, m, outDir, b)
  {
    if a != [] {
      assert (a + b)[0] == a[0] && (a + b)[1..] == a[1..] + b;
      BatchRowsConcat(io, dwgPath, m, outDir, a[1..], b);
    } else {
      assert a + b == b;
    }
  }

  /** The result at position `i` is the outcome of row `i` alone. */
  lemma {:induction false} BatchRowsAt(io: Io, dwgPath: string, m: Mapping, outDir: string,
                                       rows: seq<(int, Row)>, i: int)
    requires 0 <= i < |rows|
    ensures BatchRows(io, dwgPath, m, outDir, rows)[i] == RunRow(io, dwgPath, m, outDir, rows[i])
  {
    if i > 0 {
      BatchRowsAt(io, dwgPath, m, outDir, rows[1..], i - 1);
    }
  }

  /** A missing template fails every row with the not-found message, and
      the run still goes through all the rows. */
  lemma BatchMissingTemplate(io: Io, dwgPath: string, m: Mapping, outDir: string, rows: seq<(int, Row)>, i: int)
    requires !io.pathExists(dwgPath) && 0 <= i < |rows|
    ensures var r := BatchRows(io, dwgPath, m, outDir, rows)[i];
            r.status == Failed && r.error == Some(DwgNotFound(dwgPath)) && r.outputPath == None
  {
    BatchRowsAt(io, dwgPath, m, outDir, rows, i);
  }

  // ---------------------------------------------------------------------
  // Output names

  lemma NoUnderscoreInNumber(n: int)
    ensures '_' !in IntToString(n)
  {
    var s := IntToString(n);
    if n >= 0 {
      assert AllDigits(s);
    } else {
      assert AllDigits(NatToString(-n));
      assert s == "-" + NatToString(-n);
      assert forall i :: 0 <= i < |s| ==> s[i] == '-' || '0' <= s[i] <= '9' by {
        forall i | 0 <= i < |s| ensures s[i] == '-' || '0' <= s[i] <= '9' {
          if i > 0 { assert s[i] == NatToString(-n)[i - 1]; }
        }
      }
    }
  }

  lemma IntToStringInjective(m: int, n: int)
    requires IntToString(m) == IntToString(n)
    ensures m == n
  {
    if m >= 0 && n >= 0 {
      NatToStringInjective(m, n);
    } else if m < 0 && n < 0 {
      assert NatToString(-m) == IntToString(m)[1..] == IntToString(n)[1..] == NatToString(-n);
      NatToStringInjective(-m, -n);
    }
  }

  /** The position of the last `c` in `s`, or -1. */
  function LastIndexOf(s: string, c: char): (r: int)
    ensures -1 <= r < |s|
  {
    if s == [] then -1
    else if s[|s| - 1] == c then |s| - 1
    else LastIndexOf(s[..|s| - 1], c)
  }

  /** The last `c` of `p + [c] + d` is the one after `p` when `d` has none. */
  lemma {:induction false} LastIndexAfter(p: string, c: char, d: string)
    requires c !in d
    ensures LastIndexOf(p + [c] + d, c) == |p|
  {
    var s := p + [c] + d;
    if d == [] {
      assert s[|s| - 1] == c;
    } else {
      assert s[|s| - 1] == d[|d| - 1];
      assert s[..|s| - 1] == p + [c] + d[..|d| - 1];
      LastIndexAfter(p, c, d[..|d| - 1]);
    }
  }

  /** `p + "_" + d` with `d` free of underscores determines `p` and `d`. */
  lemma SplitAtLastUnderscore(p1: string, d1: string, p2: string, d2: string)
    requires '_' !in d1 && '_' !in d2
    requires p1 + "_" + d1 == p2 + "_" + d2
    ensures p1 == p2 && d1 == d2
  {
    var s := p1 + "_" + d1;
    LastIndexAfter(p1, '_', d1);
    LastIndexAfter(p2, '_', d2);
    assert |p1| == |p2|;
    assert p1 == s[..|p1|] == p2;
    assert d1 == s[|p1| + 1..] == d2;
  }

  /** The output name determines the project name and the row label: rows
      with different labels, or different project names, never get the same
      file name. */
  lemma OutputNameInjective(row1: Row, i1: int, row2: Row, i2: int)
    requires OutputName(row1, i1) == OutputName(row2, i2)
    ensures ProjectName(row1) == ProjectName(row2) && i1 == i2
  {
    var d1, d2 := IntToString(i1 + 1), IntToString(i2 + 1);
    NoUnderscoreInNumber(i1 + 1);
    NoUnderscoreInNumber(i2 + 1);
    var s1, s2 := ProjectName(row1) + "_" + d1, ProjectName(row2) + "_" + d2;
    assert OutputName(row1, i1) == s1 + ".dwg" && OutputName(row2, i2) == s2 + ".dwg";
    assert s1 == OutputName(row1, i1)[..|s1|];
    assert |s1| == |s2|;
    assert s2 == OutputName(row2, i2)[..|s2|];
    SplitAtLastUnderscore(ProjectName(row1), d1, ProjectName(row2), d2);
    IntToStringInjective(i1 + 1, i2 + 1);
  }

  /** The project name is not sanitised: an absolute one discards the
      output directory. */
  lemma AbsoluteProjectNameEscapes(outDir: string, row: Row, index: int)
    requires "PROJECT_NAME" in row && row["PROJECT_NAME"].Some? && StartsWith(row["PROJECT_NAME"].value, "/")
    ensures OutputPath(outDir, row, index) == OutputName(row, index)
  {
    var n := OutputName(row, index);
    assert n[..1] == ProjectName(row)[..1];
  }

  /** File names use the row's index label plus one, not its position:
      after the empty row labelled 1 is dropped, the second row kept is
      written to Project_3.dwg. */
  lemma LabelNotPosition()
    ensures OutputName(map[], 2) == "Project_3.dwg"
    ensures OutputName(map["PROJECT_NAME" := None], 0) == "None_1.dwg"
  {
  }
}

=== FILE: gui.dfy ===
/** The state logic behind the main window (`DWGAutoFillGUI` in
    src/gui.py): the mapping table, loading the template and the data,
    the manual-mapping dialog, and the guards of preview and generation.
    Windows, dialogs, drawing and the log are left out. */
module Gui {
  import opened Wrappers
  import opened OrderedDict
  import opened Text
  import opened Dxf
  import opened IoManager
  import opened Mapper
  import opened Filler

  // ---------------------------------------------------------------------
  // The mapping table

  /** A line of the mapping table: data column, attribute, status. */
  datatype TableLine = TableLine(column: string, attribute: string, status: string)

  const Placeholder: string := "---"

  /** The tags that are not the value of any mapping entry, in order. */
  function UnusedTags(mapping: Dict<string, string>, tags: seq<string>): (r: seq<string>)
    ensures forall t :: t in r <==> t in tags && t !in Values(mapping)
    ensures |r| <= |tags|
  {
    if tags == [] then []
    else
      var rest := UnusedTags(mapping, tags[1..]);
      assert forall t :: t in tags <==> t == tags[0] || t in tags[1..];
      if tags[0] in Values(mapping) then rest else [tags[0]] + rest
  }

  /** The unused tags keep the order of `tags`, one entry per occurrence:
      those of a concatenation are those of its parts. */
  lemma {:induction false} UnusedTagsOrder(mapping: Dict<string, string>, a: seq<string>, b: seq<string>)
    ensures UnusedTags(mapping, a + b) == UnusedTags(mapping, a) + UnusedTags(mapping, b)
    decreases |a|
  {
    if a == [] {
      assert a + b == b;
    } else {
      var ab := a + b;
      assert ab[0] == a[0] && ab[1..] == a[1..] + b;
      UnusedTagsOrder(mapping, a[1..], b);
    }
  }

  /** A single tag is listed exactly when no mapping entry uses it. */
  lemma UnusedTagsSingle(mapping: Dict<string, string>, t: string)
    ensures UnusedTags(mapping, [t]) == if t in Values(mapping) then [] else [t]
  {
    assert [t][1..] == [];
  }

  function ColumnLine(mapping: Dict<string, string>, col: string): TableLine {
    var attr := Get(mapping, col).GetOr(Placeholder);
    TableLine(col, attr, if attr != Placeholder then "Mapped" else "Unmapped")
  }

  /** `_update_mapping_table(mapping, df_columns, dxf_attributes)`: one
      line per data column, then one per tag no column is mapped to. */
  function MappingTable(mapping: Dict<string, string>, cols: seq<string>, tags: seq<string>): (r: seq<TableLine>)
    ensures |r| == |cols| + |UnusedTags(mapping, tags)|
    ensures forall i :: 0 <= i < |cols| ==> r[i].column == cols[i]
    ensures forall i :: |cols| <= i < |r| ==> r[i].column == Placeholder && r[i].status == "Unused DWG Attr"
    ensures forall j :: 0 <= j < |UnusedTags(mapping, tags)| ==>
              r[|cols| + j].attribute == UnusedTags(mapping, tags)[j]
  {
    var unused := UnusedTags(mapping, tags);
    seq(|cols|, i requires 0 <= i < |cols| => ColumnLine(mapping, cols[i])) +
    seq(|unused|, i requires 0 <= i < |unused| => TableLine(Placeholder, unused[i], "Unused DWG Attr"))
  }

  /** A column line reads "Mapped" with the column's tag exactly when the
      column is mapped (to anything but the placeholder itself), and
      "Unmapped" with the placeholder otherwise. */
  lemma MappingTableColumns(mapping: Dict<string, string>, cols: seq<string>, tags: seq<string>, i: int)
    requires 0 <= i < |cols|
    requires Placeholder !in Values(mapping)
    ensures var line := MappingTable(mapping, cols, tags)[i];
            && (line.status == "Mapped" <==> cols[i] in Keys(mapping))
            && (line.status == "Mapped" ==> Some(line.attribute) == Get(mapping, cols[i]))
            && (line.status != "Mapped" ==> line == TableLine(cols[i], Placeholder, "Unmapped"))
  {
    var g := Get(mapping, cols[i]);
    if g.Some? {
      var k :| 0 <= k < |mapping| && mapping[k] == (cols[i], g.value);
      assert mapping[k].1 in Values(mapping);
    }
  }

  /** Every tag shows in the table: either some mapping entry uses it, or
      it has an "Unused DWG Attr" line; a used tag never has one. */
  lemma MappingTableCoversTags(mapping: Dict<string, string>, cols: seq<string>, tags: seq<string>, t: string)
    requires t in tags
    ensures var table := MappingTable(mapping, cols, tags);
            t in Values(mapping) <==> TableLine(Placeholder, t, "Unused DWG Attr") !in table[|cols|..]
  {
    var table := MappingTable(mapping, cols, tags);
    var unused := UnusedTags(mapping, tags);
    var tail := table[|cols|..];
    assert forall i :: 0 <= i < |unused| ==> tail[i] == TableLine(Placeholder, unused[i], "Unused DWG Attr");
    if t !in Values(mapping) {
      var i :| 0 <= i < |unused| && unused[i] == t;
      assert tail[i] == TableLine(Placeholder, t, "Unused DWG Attr");
    }
  }

  // ---------------------------------------------------------------------
  // Manual mapping

  /** The dialog's rows: `[col, current_mapping.get(col, '')]` per column. */
  function InitRows(cols: seq<string>, current: Dict<string, string>): (r: seq<(string, string)>)
    ensures |r| == |cols|
    ensures forall i :: 0 <= i < |cols| ==> r[i].0 == cols[i]
    ensures forall i :: 0 <= i < |cols| ==> r[i].1 == if cols[i] in Keys(current) then Get(current, cols[i]).value else ""
  {
    seq(|cols|, i requires 0 <= i < |cols| => (cols[i], Get(current, cols[i]).GetOr("")))
  }

  /** A combo-box change: the selected row gets the new attribute; with
      no row selected (-1) nothing changes. */
  function ComboEdit(rows: seq<(string, string)>, selected: int, attr: string): (r: seq<(string, string)>)
    requires selected == -1 || 0 <= selected < |rows|
    ensures |r| == |rows|
    ensures forall i :: 0 <= i < |rows| && i != selected ==> r[i] == rows[i]
    ensures selected != -1 ==> r[selected] == (rows[selected].0, attr)
  {
    if selected == -1 then rows else rows[selected := (rows[selected].0, attr)]
  }

  /** The rows with a non-empty attribute, in order. */
  function NonEmptyRows(rows: seq<(string, string)>): (r: seq<(string, string)>)
    ensures forall e :: e in r <==> e in rows && e.1 != ""
  {
    if rows == [] then []
    else
      assert forall e :: e in rows <==> e == rows[0] || e in rows[1..];
      (if rows[0].1 != "" then [rows[0]] else []) + NonEmptyRows(rows[1..])
  }

  /** Saving: `new_mapping[col] = attr` for every row whose attribute is
      non-empty. */
  function SaveManual(rows: seq<(string, string)>): Dict<string, string> {
    FromPairs(NonEmptyRows(rows))
  }

  /** For rows with distinct columns, the saved mapping holds exactly the
      rows with a non-empty attribute. */
  lemma SaveManualGet(rows: seq<(string, string)>, i: int)
    requires forall a, b :: 0 <= a < b < |rows| ==> rows[a].0 != rows[b].0
    requires 0 <= i < |rows|
    ensures Get(SaveManual(rows), rows[i].0) == if rows[i].1 != "" then Some(rows[i].1) else None
  {
    var c := rows[i].0;
    var ps := NonEmptyRows(rows);
    FromPairsGet(ps, c);
    var r := LastValue(ps, c);
    if r.Some? {
      var k :| 0 <= k < |ps| && ps[k] == (c, r.value);
      assert ps[k] in rows;
      var a :| 0 <= a < |rows| && rows[a] == ps[k];
      assert a == i;
    }
  }

  /** A saved mapping binds only columns of the rows. */
  lemma SaveManualKeys(rows: seq<(string, string)>, c: string)
    requires forall i :: 0 <= i < |rows| ==> rows[i].0 != c
    ensures Get(SaveManual(rows), c) == None
  {
    FromPairsGet(NonEmptyRows(rows), c);
    var ps := NonEmptyRows(rows);
    forall k | 0 <= k < |ps| ensures ps[k].0 != c {
      assert ps[k] in rows;
    }
  }

  /** Saving without any edit gives the current mapping restricted to the
      data columns, minus entries whose tag is empty. */
  lemma SaveWithoutEdits(cols: seq<string>, current: Dict<string, string>, c: string)
    requires forall a, b :: 0 <= a < b < |cols| ==> cols[a] != cols[b]
    ensures Get(SaveManual(InitRows(cols, current)), c) ==
            if c in cols && Get(current, c).Some? && Get(current, c).value != "" then Get(current, c) else None
  {
    var rows := InitRows(cols, current);
    if c in cols {
      var i :| 0 <= i < |cols| && cols[i] == c;
      SaveManualGet(rows, i);
    } else {
      SaveManualKeys(rows, c);
    }
  }

  /** What the dialog's event loop reads. */
  datatype Event = WindowClosed | CancelPressed | TableSelected(selection: seq<int>) | ComboChanged(attr: string) | SavePressed

  /** Every selection event names a row of the table. */
  predicate ValidEvents(events: seq<Event>, n: nat) {
    forall i :: 0 <= i < |events| && events[i].TableSelected? && |events[i].selection| > 0 ==>
      0 <= events[i].selection[0] < n
  }

  /** The dialog's event loop from the given rows and selection: the mapping
      saved, or None when the window is closed or cancelled first (or the
      events run out). */
  function ManualSession(rows: seq<(string, string)>, selected: int, events: seq<Event>): (r: Option<Dict<string, string>>)
    requires selected == -1 || 0 <= selected < |rows|
    requires ValidEvents(events, |rows|)
    decreases |events|
  {
    if events == [] then None
    else
      assert ValidEvents(events[1..], |rows|) by {
        assert forall i :: 0 <= i < |events| - 1 ==> events[1..][i] == events[i + 1];
      }
      match events[0]
      case WindowClosed => None
      case CancelPressed => None
      case TableSelected(sel) =>
        if |sel| > 0 then ManualSession(rows, sel[0], events[1..]) else ManualSession(rows, selected, events[1..])
      case ComboChanged(attr) => ManualSession(ComboEdit(rows, selected, attr), selected, events[1..])
      case SavePressed => Some(SaveManual(rows))
  }

  /** A combo change before any row is selected is ignored. */
  lemma ComboWithoutSelection(rows: seq<(string, string)>, attr: string, events: seq<Event>)
    requires ValidEvents([ComboChanged(attr)] + events, |rows|)
    ensures ValidEvents(events, |rows|)
    ensures ManualSession(rows, -1, [ComboChanged(attr)] + events) == ManualSession(rows, -1, events)
  {
    var es := [ComboChanged(attr)] + events;
    assert es[1..] == events;
    assert forall i :: 0 <= i < |events| ==> events[i] == es[i + 1];
  }

  /** Without combo changes, the dialog either saves its initial rows or
      saves nothing. */
  lemma {:induction false} SessionWithoutEdits(rows: seq<(string, string)>, selected: int, events: seq<Event>)
    requires selected == -1 || 0 <= selected < |rows|
    requires ValidEvents(events, |rows|)
    requires forall i :: 0 <= i < |events| ==> !events[i].ComboChanged?
    ensures var r := ManualSession(rows, selected, events);
            r.None? || r == Some(SaveManual(rows))
    decreases |events|
  {
    if events != [] {
      assert forall i :: 0 <= i < |events| - 1 ==> events[1..][i] == events[i + 1];
      match events[0]
      case TableSelected(sel) =>
        if |sel| > 0 {
          SessionWithoutEdits(rows, sel[0], events[1..]);
        } else {
          SessionWithoutEdits(rows, selected, events[1..]);
        }
      case _ =>
    }
  }

  // ---------------------------------------------------------------------
  // Application state

  /** `current_doc`, `current_data_df`, `current_mapping`,
      `changed_entities`, and the lines of the mapping table. */
  datatype AppState = AppState(doc: Option<Drawing>, data: Option<Table>, mapping: Dict<string, string>,
                               changed: seq<Changed>, table: seq<TableLine>)

  function TemplateTags(doc: Drawing): seq<string> {
    Keys(GetDxfAttributes(doc))
  }

  /** `_load_dwg_template(path)`: on success the template is kept and, if
      data is loaded, the mapping is rebuilt automatically; on failure the
      template is dropped and the rest stays. */
  function LoadTemplate(f: Fuzzy, io: Io, s: AppState, path: string): (r: AppState)
    ensures r.data == s.data && r.changed == s.changed
    ensures r.doc.Some? <==> LoadDwg(io, path).Ok?
    ensures r.doc.None? ==> r == s.(doc := None)
    ensures LoadDwg(io, path).Ok? ==>
              var doc := LoadDwg(io, path).value;
              var tags := TemplateTags(doc);
              && r.doc == Some(doc)
              && (s.data.Some? ==>
                    var cols := s.data.value.columns;
                    r.mapping == AutoMap(f, DefaultThreshold, cols, tags) && r.table == MappingTable(r.mapping, cols, tags))
              && (s.data.None? ==> r.mapping == s.mapping && r.table == MappingTable([], [], tags))
  {
    match LoadDwg(io, path)
    case Err(_) => s.(doc := None)
    case Ok(doc) =>
      var tags := TemplateTags(doc);
      match s.data
      case Some(t) =>
        var m := AutoMap(f, DefaultThreshold, t.columns, tags);
        s.(doc := Some(doc), mapping := m, table := MappingTable(m, t.columns, tags))
      case None =>
        s.(doc := Some(doc), table := MappingTable([], [], tags))
  }

  /** `_load_data_file(path)`: on success the table is kept and, if a
      template is loaded, the mapping is rebuilt automatically; on failure
      the data is dropped and the rest stays. */
  function LoadData(f: Fuzzy, io: Io, s: AppState, path: string): (r: AppState)
    ensures r.doc == s.doc && r.changed == s.changed
    ensures r.data.Some? <==> ReadTable(io, path).Ok?
    ensures r.data.None? ==> r == s.(data := None)
    ensures ReadTable(io, path).Ok? ==>
              var t := ReadTable(io, path).value;
              && r.data == Some(t)
              && (s.doc.Some? ==>
                    var tags := TemplateTags(s.doc.value);
                    r.mapping == AutoMap(f, DefaultThreshold, t.columns, tags) && r.table == MappingTable(r.mapping, t.columns, tags))
              && (s.doc.None? ==> r.mapping == s.mapping && r.table == s.table)
  {
    match ReadTable(io, path)
    case Err(_) => s.(data := None)
    case Ok(t) =>
      match s.doc
      case Some(doc) =>
        var tags := TemplateTags(doc);
        var m := AutoMap(f, DefaultThreshold, t.columns, tags);
        s.(data := Some(t), mapping := m, table := MappingTable(m, t.columns, tags))
      case None => s.(data := Some(t))
  }

  /** Loading both files, in either order, leaves the automatic mapping of
      the table's columns to the template's tags. */
  lemma LoadBothAutoMaps(f: Fuzzy, io: Io, s: AppState, dwgPath: string, dataPath: string)
    requires LoadDwg(io, dwgPath).Ok? && ReadTable(io, dataPath).Ok?
    ensures var cols := ReadTable(io, dataPath).value.columns;
            var tags := TemplateTags(LoadDwg(io, dwgPath).value);
            && LoadData(f, io, LoadTemplate(f, io, s, dwgPath), dataPath).mapping == AutoMap(f, DefaultThreshold, cols, tags)
            && LoadTemplate(f, io, LoadData(f, io, s, dataPath), dwgPath).mapping == AutoMap(f, DefaultThreshold, cols, tags)
  {
  }

  /** `_show_manual_mapping_window` with the events the dialog reads: it
      needs both files loaded; a save replaces the mapping and the table,
      anything else keeps them. */
  function ManualMapping(s: AppState, events: seq<Event>): (r: AppState)
    requires s.data.Some? ==> ValidEvents(events, |s.data.value.columns|)
    ensures r.doc == s.doc && r.data == s.data && r.changed == s.changed
    ensures s.data.None? || s.doc.None? ==> r == s
  {
    if s.data.None? || s.doc.None? then s
    else
      var cols := s.data.value.columns;
      var tags := TemplateTags(s.doc.value);
      match ManualSession(InitRows(cols, s.mapping), -1, events)
      case None => s
      case Some(m) => s.(mapping := m, table := MappingTable(m, cols, tags))
  }

  /** Closing or cancelling the dialog first keeps the mapping. */
  lemma ManualMappingCancelled(s: AppState, events: seq<Event>)
    requires s.data.Some? ==> ValidEvents(events, |s.data.value.columns|)
    requires |events| > 0 && (events[0] == WindowClosed || events[0] == CancelPressed)
    ensures ManualMapping(s, events) == s
  {
  }

  // ---------------------------------------------------------------------
  // Preview and generation

  /** The guard of `_preview_document` and `_generate_documents`. */
  predicate CanRun(s: AppState) {
    s.doc.Some? && s.data.Some? && |s.mapping| > 0
  }

  datatype PreviewOutcome = PreviewRefused | PreviewFailed(error: string) | Previewed(doc: Drawing, boxes: seq<Bbox>)

  /** pandas' message for `iloc[0]` on a table without rows. */
  const NoFirstRow: string := "single positional indexer is out-of-bounds"

  /** `_preview_document`: reload the template from `dwgPath`, fill it with
      the first row, and keep the records for highlighting. */
  function Preview(io: Io, s: AppState, dwgPath: string): (r: (AppState, PreviewOutcome))
    ensures !CanRun(s) ==> r == (s, PreviewRefused)
    ensures r.1.Previewed? ==> CanRun(s) && LoadDwg(io, dwgPath).Ok? && |s.data.value.rows| > 0
    ensures r.1.Previewed? ==>
              && CanRun(s) && LoadDwg(io, dwgPath).Ok? && |s.data.value.rows| > 0
              && var (filled, changed) := FillDocument(LoadDwg(io, dwgPath).value, s.mapping, s.data.value.rows[0].1);
                 && r.1.doc == filled && r.0.changed == changed
                 && |r.1.boxes| == |changed|
                 && (forall i :: 0 <= i < |changed| ==> r.1.boxes[i] == changed[i].bbox)
    ensures r.1.Previewed? ==> r.0 == s.(changed := r.0.changed)
    ensures !r.1.Previewed? ==> r.0 == s
    ensures CanRun(s) && |s.data.value.rows| == 0 ==> r.1 == PreviewFailed(NoFirstRow)
    ensures CanRun(s) && |s.data.value.rows| > 0 && LoadDwg(io, dwgPath).Err? ==>
              r.1 == PreviewFailed(LoadDwg(io, dwgPath).error)
  {
    if !CanRun(s) then (s, PreviewRefused)
    else if |s.data.value.rows| == 0 then (s, PreviewFailed(NoFirstRow))
    else
      match LoadDwg(io, dwgPath)
      case Err(e) => (s, PreviewFailed(e))
      case Ok(doc) =>
        var (filled, changed) := FillDocument(doc, s.mapping, s.data.value.rows[0].1);
        (s.(changed := changed), Previewed(filled, seq(|changed|, i requires 0 <= i < |changed| => changed[i].bbox)))
  }

  /** The preview shows what generation writes for the first row: when that
      row's file is saved, the previewed drawing is the one saved and the
      highlighted records are the ones counted. */
  lemma PreviewIsFirstRow(io: Io, s: AppState, dwgPath: string, outDir: string)
    requires Preview(io, s, dwgPath).1.Previewed?
    ensures var r := RunRow(io, dwgPath, s.mapping, outDir, s.data.value.rows[0]);
            var p := Preview(io, s, dwgPath);
            && (r.status == Success <==>
                  SaveDwg(io, p.1.doc, OutputPath(outDir, s.data.value.rows[0].1, s.data.value.rows[0].0)).Pass?)
            && (r.status == Success ==> r.changedCount == |p.0.changed| == |p.1.boxes|)
  {
  }

  /** How a click on Generate ends. */
  datatype GenerateOutcome =
    | GenerateRefused
    | FolderNotChosen
    | Crashed(filesWritten: seq<RowResult>, error: string)
    | Reported(successCount: nat, failedCount: nat, totalRows: nat)

  /** Python's message for indexing a list with a string. */
  const ListIndexError: string := "list indices must be integers or slices, not str"

  /** `_generate_documents` as written: after the batch has run it reads
      `report['success_count']` from the list `batch_fill` returns, which
      raises; a failure to create the folder propagates as well. */
  function GenerateAsWritten(io: Io, s: AppState, dwgPath: string, folder: Option<string>): (r: GenerateOutcome)
    ensures !CanRun(s) ==> r == GenerateRefused
  {
    if !CanRun(s) then GenerateRefused
    else if folder.None? || folder.value == "" then FolderNotChosen
    else
      match BatchFill(io, dwgPath, s.data.value, s.mapping, folder.value)
      case Err(e) => Crashed([], e)
      case Ok(results) => Crashed(results, ListIndexError)
  }

  /** Whenever generation actually runs, it ends in an error after all
      files have been written: the success report is never shown. */
  lemma GenerateAsWrittenCrashes(io: Io, s: AppState, dwgPath: string, folder: string)
    requires CanRun(s) && folder != "" && EnsureDirectory(io, folder).Pass?
    ensures var r := GenerateAsWritten(io, s, dwgPath, Some(folder));
            && r.Crashed? && r.error == ListIndexError
            && r.filesWritten == BatchRows(io, dwgPath, s.mapping, folder, s.data.value.rows)
  {
  }

  function CountSuccess(results: seq<RowResult>): (n: nat)
    ensures n <= |results|
  {
    if results == [] then 0
    else (if results[0].status == Success then 1 else 0) + CountSuccess(results[1..])
  }

  function CountFailed(results: seq<RowResult>): (n: nat)
    ensures n <= |results|
  {
    if results == [] then 0
    else (if results[0].status == Failed then 1 else 0) + CountFailed(results[1..])
  }

  /** Every result is a success or a failure, never both. */
  lemma {:induction false} SuccessPlusFailed(results: seq<RowResult>)
    ensures CountSuccess(results) + CountFailed(results) == |results|
  {
    if results != [] {
      SuccessPlusFailed(results[1..]);
    }
  }

  /** `_generate_documents` with the report computed from the list: the
      number of successful rows, of failed rows, and of all rows. */
  function Generate(io: Io, s: AppState, dwgPath: string, folder: Option<string>): (r: GenerateOutcome)
    ensures !CanRun(s) ==> r == GenerateRefused
    ensures CanRun(s) && (folder.None? || folder == Some("")) ==> r == FolderNotChosen
    ensures r.Reported? ==>
              && CanRun(s) && folder.Some? && BatchFill(io, dwgPath, s.data.value, s.mapping, folder.value).Ok?
              && var results := BatchFill(io, dwgPath, s.data.value, s.mapping, folder.value).value;
                 && r.totalRows == |s.data.value.rows|
                 && r.successCount == CountSuccess(results)
                 && r.failedCount == CountFailed(results)
    ensures CanRun(s) && folder.Some? && folder.value != "" ==>
              (r.Reported? <==> EnsureDirectory(io, folder.value).Pass?)
  {
    if !CanRun(s) then GenerateRefused
    else if folder.None? || folder.value == "" then FolderNotChosen
    else
      match BatchFill(io, dwgPath, s.data.value, s.mapping, folder.value)
      case Err(e) => Crashed([], e)
      case Ok(results) =>
        var ok := CountSuccess(results);
        SuccessPlusFailed(results);
        Reported(ok, |results| - ok, |results|)
  }

  /** The corrected report counts every row of the table, and counts a
      row as successful exactly when its file was written. */
  lemma GenerateCounts(io: Io, s: AppState, dwgPath: string, folder: string)
    requires CanRun(s) && folder != "" && EnsureDirectory(io, folder).Pass?
    ensures var r := Generate(io, s, dwgPath, Some(folder));
            var results := BatchRows(io, dwgPath, s.mapping, folder, s.data.value.rows);
            && r.Reported?
            && r.totalRows == |s.data.value.rows|
            && r.successCount == CountSuccess(results)
            && r.successCount == |SuccessfulRows(results)|
            && r.failedCount == CountFailed(results)
            && r.successCount + r.failedCount == r.totalRows
  {
    var rows := s.data.value.rows;
    var results := BatchRows(io, dwgPath, s.mapping, folder, rows);
    forall i | 0 <= i < |results|
      ensures results[i].status == Success <==> results[i].outputPath.Some?
    {
      BatchRowsAt(io, dwgPath, s.mapping, folder, rows, i);
    }
    CountSuccessFilter(results);
  }

  /** The results whose file was written. */
  function SuccessfulRows(results: seq<RowResult>): (r: seq<RowResult>)
    ensures forall x :: x in r <==> x in results && x.outputPath.Some?
  {
    if results == [] then []
    else
      assert forall x :: x in results <==> x == results[0] || x in results[1..];
      (if results[0].outputPath.Some? then [results[0]] else []) + SuccessfulRows(results[1..])
  }

  lemma {:induction false} CountSuccessFilter(results: seq<RowResult>)
    requires forall i :: 0 <= i < |results| ==> (results[i].status == Success <==> results[i].outputPath.Some?)
    ensures CountSuccess(results) == |SuccessfulRows(results)|
  {
    if results != [] {
      assert forall i :: 0 <= i < |results| - 1 ==> results[1..][i] == results[i + 1];
      CountSuccessFilter(results[1..]);
    }
  }
}

=== FILE: io_manager.dfy ===
/** Loading and saving drawings, reading data tables and harvesting
    attribute tags (`IOManager` in src/io_manager.py). The file system, the
    drawing library and the table readers are parameters. */
module IoManager {
  import opened Wrappers
  import opened OrderedDict
  import opened Text
  import opened Dxf

  // ---------------------------------------------------------------------
  // Tables

  /** One table row as `row_series.to_dict()` gives it: column name to cell
      value, `None` standing for a missing value. */
  type Row = map<string, Option<string>>

  /** A data table: its column names in order and its rows, each with its
      index label. */
  datatype Table = Table(columns: seq<string>, rows: seq<(int, Row)>)

  /** `row.get(col)`: an absent column and a `None` cell both read as None. */
  function Cell(row: Row, col: string): (r: Option<string>)
    ensures r.Some? ==> col in row && row[col] == r
  {
    if col in row then row[col] else None
  }

  // ---------------------------------------------------------------------
  // The outside world

  /** How a library call failed: a DXF structure error, a text decoding
      error, or anything else; each carries `str(e)`. */
  datatype LibError = StructureError(message: string) | DecodeError(message: string) | OtherError(message: string)

  /** The calls into the file system and libraries: `os.path.exists`,
      `ezdxf.readfile`, `doc.saveas(path, version=...)`, `os.makedirs(path,
      exist_ok=True)`, `pd.read_excel`, `pd.read_csv(path, encoding=...)`
      and `pd.read_json`. */
  datatype Io = Io(
    pathExists: string -> bool,
    readFile: string -> Result<Drawing, LibError>,
    saveAs: (Drawing, string, string) -> Outcome<string>,
    makeDirs: string -> Outcome<string>,
    readExcel: string -> Result<Table, LibError>,
    readCsv: (string, string) -> Result<Table, LibError>,
    readJson: string -> Result<Table, LibError>)

  // ---------------------------------------------------------------------
  // Drawings

  function DwgNotFound(path: string): string { "Файл не найден: " + path }
  function DwgStructureMessage(e: string): string { "Ошибка структуры DXF/DWG файла: " + e }
  function DwgReadMessage(e: string): string { "Не удалось прочитать DWG/DXF файл: " + e }

  /** `load_dwg`: a missing path is reported before the library is asked;
      a structure error and every other library error get their own
      message. */
  function LoadDwg(io: Io, path: string): (r: Result<Drawing, string>)
    ensures r.Ok? <==> io.pathExists(path) && io.readFile(path).Ok?
    ensures r.Ok? ==> r.value == io.readFile(path).value
    ensures !io.pathExists(path) ==> r == Err(DwgNotFound(path))
    ensures io.pathExists(path) && io.readFile(path).Err? ==>
              r == Err(match io.readFile(path).error
                       case StructureError(e) => DwgStructureMessage(e)
                       case DecodeError(e) => DwgReadMessage(e)
                       case OtherError(e) => DwgReadMessage(e))
  {
    if !io.pathExists(path) then Err(DwgNotFound(path))
    else
      match io.readFile(path)
      case Ok(doc) => Ok(doc)
      case Err(StructureError(e)) => Err(DwgStructureMessage(e))
      case Err(DecodeError(e)) => Err(DwgReadMessage(e))
      case Err(OtherError(e)) => Err(DwgReadMessage(e))
  }

  /** A missing drawing is reported without reading anything: the result
      does not depend on the library reader. */
  lemma LoadDwgChecksPathFirst(io: Io, path: string, reader: string -> Result<Drawing, LibError>)
    requires !io.pathExists(path)
    ensures LoadDwg(io, path) == LoadDwg(io.(readFile := reader), path)
    ensures LoadDwg(io, path).Err? && StartsWith(LoadDwg(io, path).error, "Файл не найден: ")
  {
  }

  /** The default `version` of `save_dwg`. */
  const SaveVersion: string := "AC1021"

  function SaveMessage(outPath: string, e: string): string {
    "Ошибка при сохранении DWG/DXF файла в " + outPath + ": " + e
  }

  /** `save_dwg(doc, out_path)`: saves in the default version; a failure is
      reported with the output path. */
  function SaveDwg(io: Io, doc: Drawing, outPath: string): (r: Outcome<string>)
    ensures r.Pass? <==> io.saveAs(doc, outPath, SaveVersion).Pass?
    ensures r.Fail? ==> r.error == SaveMessage(outPath, io.saveAs(doc, outPath, SaveVersion).error)
  {
    match io.saveAs(doc, outPath, SaveVersion)
    case Pass => Pass
    case Fail(e) => Fail(SaveMessage(outPath, e))
  }

  /** Saving only ever asks for version AC1021: what the library does for
      any other version is irrelevant. */
  lemma SaveDwgUsesDefaultVersion(io: Io, doc: Drawing, outPath: string,
                                  other: (Drawing, string, string) -> Outcome<string>)
    requires forall d, p :: other(d, p, SaveVersion) == io.saveAs(d, p, SaveVersion)
    ensures SaveDwg(io, doc, outPath) == SaveDwg(io.(saveAs := other), doc, outPath)
  {
  }

  /** `ensure_directory`. */
  function EnsureDirectory(io: Io, path: string): Outcome<string> {
    io.makeDirs(path)
  }

  // ---------------------------------------------------------------------
  // Data tables

  datatype Format = Excel | Csv | Json

  /** The reader chosen by the lower-cased path's suffix. */
  function FormatOf(path: string): (r: Option<Format>)
    ensures r == Some(Excel) <==> EndsWith(Lower(path), ".xlsx") || EndsWith(Lower(path), ".xls")
    ensures r == Some(Csv) <==> !EndsWith(Lower(path), ".xlsx") && !EndsWith(Lower(path), ".xls") &&
                                EndsWith(Lower(path), ".csv")
    ensures r == Some(Json) <==> !EndsWith(Lower(path), ".xlsx") && !EndsWith(Lower(path), ".xls") &&
                                 !EndsWith(Lower(path), ".csv") && EndsWith(Lower(path), ".json")
  {
    var p := Lower(path);
    if EndsWith(p, ".xlsx") || EndsWith(p, ".xls") then Some(Excel)
    else if EndsWith(p, ".csv") then Some(Csv)
    else if EndsWith(p, ".json") then Some(Json)
    else None
  }

  /** The suffix test ignores case. */
  lemma FormatIgnoresCase(path: string)
    ensures FormatOf(Lower(path)) == FormatOf(path)
  {
    LowerIdempotent(path);
  }

  /** Whatever comes before it, a path's suffix, in any case, picks the
      reader: Excel for .xlsx and .xls, CSV, JSON; any other suffix has
      none. */
  lemma FormatBySuffix(p: string)
    ensures FormatOf(p + ".XLSX") == Some(Excel)
    ensures FormatOf(p + ".xls") == Some(Excel)
    ensures FormatOf(p + ".Csv") == Some(Csv)
    ensures FormatOf(p + ".json") == Some(Json)
    ensures FormatOf(p + ".txt") == None
  {
    SuffixLower(p, ".XLSX", ".xlsx");
    SuffixLower(p, ".xls", ".xls");
    CsvSuffix(p);
    JsonSuffix(p);
    TxtSuffix(p);
  }

  lemma CsvSuffix(p: string)
    ensures FormatOf(p + ".Csv") == Some(Csv)
  {
    SuffixLower(p, ".Csv", ".csv");
    LastCharDiffers(Lower(p), ".csv", ".xls");
    LastCharDiffers(Lower(p), ".csv", ".xlsx");
  }

  lemma JsonSuffix(p: string)
    ensures FormatOf(p + ".json") == Some(Json)
  {
    SuffixLower(p, ".json", ".json");
    LastCharDiffers(Lower(p), ".json", ".xls");
    LastCharDiffers(Lower(p), ".json", ".xlsx");
    LastCharDiffers(Lower(p), ".json", ".csv");
  }

  lemma TxtSuffix(p: string)
    ensures FormatOf(p + ".txt") == None
  {
    SuffixLower(p, ".txt", ".txt");
    LastCharDiffers(Lower(p), ".txt", ".xls");
    LastCharDiffers(Lower(p), ".txt", ".xlsx");
    LastCharDiffers(Lower(p), ".txt", ".csv");
    LastCharDiffers(Lower(p), ".txt", ".json");
  }

  /** A string does not end with a suffix whose last character differs
      from its own. */
  lemma LastCharDiffers(q: string, a: string, b: string)
    requires |a| > 0 && |b| > 0 && a[|a| - 1] != b[|b| - 1]
    ensures !EndsWith(q + a, b)
  {
    var s := q + a;
    assert s[|s| - 1] == a[|a| - 1];
    if |b| <= |s| {
      assert s[|s| - |b|..][|b| - 1] == s[|s| - 1];
    }
  }

  /** Lower-casing a path with a known suffix. */
  lemma SuffixLower(p: string, s: string, lower: string)
    requires Lower(s) == lower
    ensures Lower(p + s) == Lower(p) + lower
    ensures EndsWith(Lower(p + s), lower)
  {
    LowerConcat(p, s);
    var r := Lower(p) + lower;
    assert r[|r| - |lower|..] == lower;
  }

  function TableNotFound(path: string): string { "Файл данных не найден: " + path }

  const UnsupportedFormat: string := "Неподдерживаемый формат файла данных. Ожидается .xlsx, .csv или .json."
  const EmptyTable: string := "Файл данных пуст или содержит только заголовки."

  /** The message every error inside the reading block is re-raised with. */
  function ReadFailure(path: string, e: string): string {
    "Ошибка при чтении файла данных " + path + ": " + e
  }

  /** The library call for the path's format; a CSV file that fails to
      decode as UTF-8 is read again as cp1251. */
  function ReadRaw(io: Io, path: string): Result<Table, string> {
    match FormatOf(path)
    case Some(Excel) => LibResult(io.readExcel(path))
    case Some(Csv) =>
      (match io.readCsv(path, "utf-8")
       case Err(DecodeError(_)) => LibResult(io.readCsv(path, "cp1251"))
       case other => LibResult(other))
    case Some(Json) => LibResult(io.readJson(path))
    case None => Err(UnsupportedFormat)
  }

  function LibResult(r: Result<Table, LibError>): (s: Result<Table, string>)
    ensures s.Ok? <==> r.Ok?
    ensures s.Ok? ==> s.value == r.value
    ensures s.Err? ==> s.error == r.error.message
  {
    match r
    case Ok(t) => Ok(t)
    case Err(e) => Err(e.message)
  }

  /** A row with no value in any of the columns. */
  predicate EmptyRow(columns: seq<string>, row: Row) {
    forall c :: c in columns ==> Cell(row, c).None?
  }

  /** `df.dropna(how='all')`: the rows with at least one value, in order,
      with their index labels kept. */
  function DropEmptyRows(t: Table): (r: Table)
    ensures r.columns == t.columns
    ensures forall e :: e in r.rows ==> e in t.rows && !EmptyRow(t.columns, e.1)
    ensures forall e :: e in t.rows && !EmptyRow(t.columns, e.1) ==> e in r.rows
  {
    Table(t.columns, KeepRows(t.columns, t.rows))
  }

  function KeepRows(columns: seq<string>, rows: seq<(int, Row)>): (r: seq<(int, Row)>)
    ensures forall e :: e in r ==> e in rows && !EmptyRow(columns, e.1)
    ensures forall e :: e in rows && !EmptyRow(columns, e.1) ==> e in r
    ensures |r| <= |rows|
  {
    if rows == [] then []
    else
      var rest := KeepRows(columns, rows[1..]);
      assert forall e :: e in rows ==> e == rows[0] || e in rows[1..];
      if EmptyRow(columns, rows[0].1) then rest else [rows[0]] + rest
  }

  /** Dropping empty rows keeps the row order: it distributes over a split
      of the rows. */
  lemma {:induction false} KeepRowsConcat(columns: seq<string>, a: seq<(int, Row)>, b: seq<(int, Row)>)
    ensures KeepRows(columns, a + b) == KeepRows(columns, a) + KeepRows(columns, b)
  {
    if a != [] {
      assert (a + b)[1..] == a[1..] + b;
      KeepRowsConcat(columns, a[1..], b);
    } else {
      assert a + b == b;
    }
  }

  /** `df.empty`: no rows or no columns. */
  predicate IsEmpty(t: Table) {
    |t.rows| == 0 || |t.columns| == 0
  }

  /** `read_table`: the path must exist (checked outside the reading
      block); then the format's reader, dropping of empty rows and the
      emptiness check, any failure of which is re-raised with the path. */
  function ReadTable(io: Io, path: string): (r: Result<Table, string>)
    ensures !io.pathExists(path) ==> r == Err(TableNotFound(path))
    ensures r.Ok? ==> io.pathExists(path) && FormatOf(path).Some? && !IsEmpty(r.value)
    ensures r.Ok? ==> forall e :: e in r.value.rows ==> !EmptyRow(r.value.columns, e.1)
    ensures r.Err? ==> r.error == TableNotFound(path) || StartsWith(r.error, "Ошибка при чтении файла данных " + path + ": ")
  {
    if !io.pathExists(path) then Err(TableNotFound(path))
    else
      match ReadRaw(io, path)
      case Err(e) => Err(ReadFailure(path, e))
      case Ok(raw) =>
        var t := DropEmptyRows(raw);
        if IsEmpty(t) then Err(ReadFailure(path, EmptyTable)) else Ok(t)
  }

  /** A successful read is the reader's table with the empty rows dropped. */
  lemma ReadTableOk(io: Io, path: string)
    requires ReadTable(io, path).Ok?
    ensures ReadRaw(io, path).Ok? && ReadTable(io, path).value == DropEmptyRows(ReadRaw(io, path).value)
  {
  }

  /** An unsupported suffix is an error whatever the readers do. */
  lemma ReadTableUnsupported(io: Io, path: string)
    requires io.pathExists(path) && FormatOf(path).None?
    ensures ReadTable(io, path) == Err(ReadFailure(path, UnsupportedFormat))
  {
  }

  /** A table whose every row is empty is an error. */
  lemma ReadTableAllEmpty(io: Io, path: string)
    requires io.pathExists(path) && ReadRaw(io, path).Ok?
    requires forall e :: e in ReadRaw(io, path).value.rows ==> EmptyRow(ReadRaw(io, path).value.columns, e.1)
    ensures ReadTable(io, path) == Err(ReadFailure(path, EmptyTable))
  {
    var raw := ReadRaw(io, path).value;
    KeepRowsAllEmpty(raw.columns, raw.rows);
  }

  lemma {:induction false} KeepRowsAllEmpty(columns: seq<string>, rows: seq<(int, Row)>)
    requires forall e :: e in rows ==> EmptyRow(columns, e.1)
    ensures KeepRows(columns, rows) == []
  {
    if rows != [] {
      assert rows[0] in rows;
      KeepRowsAllEmpty(columns, rows[1..]);
    }
  }

  /** A CSV file is read as UTF-8 first; only a decoding error makes the
      cp1251 reading count, and the other formats' readers are never asked. */
  lemma ReadTableCsv(io: Io, path: string, excel: string -> Result<Table, LibError>,
                     json: string -> Result<Table, LibError>)
    requires io.pathExists(path) && FormatOf(path) == Some(Csv)
    ensures ReadTable(io, path) == ReadTable(io.(readExcel := excel, readJson := json), path)
    ensures io.readCsv(path, "utf-8").Err? && io.readCsv(path, "utf-8").error.DecodeError? ==>
              ReadRaw(io, path) == LibResult(io.readCsv(path, "cp1251"))
    ensures !(io.readCsv(path, "utf-8").Err? && io.readCsv(path, "utf-8").error.DecodeError?) ==>
              ReadRaw(io, path) == LibResult(io.readCsv(path, "utf-8"))
  {
  }

  // ---------------------------------------------------------------------
  // Attribute tags of the block definitions

  /** The blocks `get_dxf_attributes` passes over. */
  predicate Skipped(b: BlockDef) {
    b.isLayout || b.isAnonymous || |b.attdefTags| == 0
  }

  /** The (tag, block name) pairs the inner loop visits for one block:
      none for a skipped block. */
  function BlockPairs(b: BlockDef): (r: seq<(string, string)>)
    ensures forall p :: p in r <==> !Skipped(b) && b.name == p.1 && p.0 in b.attdefTags
  {
    if Skipped(b) then []
    else
      var r := seq(|b.attdefTags|, j requires 0 <= j < |b.attdefTags| => (b.attdefTags[j], b.name));
      assert forall j :: 0 <= j < |b.attdefTags| ==> r[j] == (b.attdefTags[j], b.name);
      r
  }

  /** The (tag, block name) pairs the nested loop visits, block by block
      and attribute definition by attribute definition. */
  function AttdefPairs(blocks: seq<BlockDef>): seq<(string, string)> {
    if blocks == [] then [] else BlockPairs(blocks[0]) + AttdefPairs(blocks[1..])
  }

  /** A pair is visited exactly when its block is not skipped and defines
      the tag. */
  lemma {:induction false} AttdefPairsMembers(blocks: seq<BlockDef>, p: (string, string))
    ensures p in AttdefPairs(blocks) <==> exists i :: 0 <= i < |blocks| && !Skipped(blocks[i]) &&
                                            blocks[i].name == p.1 && p.0 in blocks[i].attdefTags
  {
    if blocks != [] {
      var rest := blocks[1..];
      AttdefPairsMembers(rest, p);
      assert forall i :: 1 <= i < |blocks| ==> blocks[i] == rest[i - 1];
      if p in AttdefPairs(rest) {
        var i :| 0 <= i < |rest| && !Skipped(rest[i]) && rest[i].name == p.1 && p.0 in rest[i].attdefTags;
        assert blocks[i + 1] == rest[i];
      }
    }
  }

  lemma {:induction false} AttdefPairsConcat(a: seq<BlockDef>, b: seq<BlockDef>)
    ensures AttdefPairs(a + b) == AttdefPairs(a) + AttdefPairs(b)
  {
    if a != [] {
      assert (a + b)[0] == a[0] && (a + b)[1..] == a[1..] + b;
      AttdefPairsConcat(a[1..], b);
    } else {
      assert a + b == b;
    }
  }

  /** `attributes[tag].append(block.name)`, creating the list on first use. */
  function AddTag(d: Dict<string, seq<string>>, tag: string, name: string): Dict<string, seq<string>> {
    Put(d, tag, Get(d, tag).GetOr([]) + [name])
  }

  function Harvest(ps: seq<(string, string)>): Dict<string, seq<string>> {
    if ps == [] then []
    else AddTag(Harvest(ps[..|ps| - 1]), ps[|ps| - 1].0, ps[|ps| - 1].1)
  }

  /** `get_dxf_attributes(doc)`: tag to the names of the blocks defining it. */
  function GetDxfAttributes(doc: Drawing): Dict<string, seq<string>> {
    Harvest(AttdefPairs(doc.blocks))
  }

  /** The block names paired with `tag`, in order: an independent reading
      of the list `get_dxf_attributes` builds for `tag`. */
  function Occurrences(ps: seq<(string, string)>, tag: string): seq<string> {
    if ps == [] then []
    else Occurrences(ps[..|ps| - 1], tag) + (if ps[|ps| - 1].0 == tag then [ps[|ps| - 1].1] else [])
  }

  /** The distinct elements of `s` in order of first appearance. */
  function Dedup(s: seq<string>): (r: seq<string>)
    ensures forall x :: x in r <==> x in s
    ensures forall i, j :: 0 <= i < j < |r| ==> r[i] != r[j]
  {
    if s == [] then []
    else
      var d := Dedup(s[..|s| - 1]);
      assert forall x :: x in s <==> x in s[..|s| - 1] || x == s[|s| - 1];
      if s[|s| - 1] in d then d else d + [s[|s| - 1]]
  }

  function TagsOf(ps: seq<(string, string)>): seq<string> {
    seq(|ps|, i requires 0 <= i < |ps| => ps[i].0)
  }

  /** Each tag maps to all the block names paired with it, in order, and a
      tag is present exactly when it is paired at least once. */
  lemma {:induction false} HarvestGet(ps: seq<(string, string)>, tag: string)
    ensures Get(Harvest(ps), tag) == if Occurrences(ps, tag) == [] then None else Some(Occurrences(ps, tag))
  {
    if ps != [] {
      var init, last := ps[..|ps| - 1], ps[|ps| - 1];
      var d := Harvest(init);
      HarvestGet(init, tag);
      HarvestGet(init, last.0);
      PutGet(d, last.0, Get(d, last.0).GetOr([]) + [last.1], tag);
      if last.0 != tag {
        assert Occurrences(ps, tag) == Occurrences(init, tag) + [];
        assert Occurrences(init, tag) + [] == Occurrences(init, tag);
      }
    }
  }

  /** The keys are the tags in order of first appearance. */
  lemma {:induction false} HarvestKeys(ps: seq<(string, string)>)
    ensures Keys(Harvest(ps)) == Dedup(TagsOf(ps))
  {
    if ps != [] {
      var init, last := ps[..|ps| - 1], ps[|ps| - 1];
      var d := Harvest(init);
      HarvestKeys(init);
      var v := Get(d, last.0).GetOr([]) + [last.1];
      assert Harvest(ps) == Put(d, last.0, v);
      PutKeys(d, last.0, v);
      var ts := TagsOf(ps);
      assert ts[..|ts| - 1] == TagsOf(init);
      assert ts[|ts| - 1] == last.0;
      assert Dedup(ts) == if last.0 in Dedup(TagsOf(init)) then Dedup(TagsOf(init)) else Dedup(TagsOf(init)) + [last.0];
    }
  }

  /** `get_dxf_attributes` over the whole drawing: the tags present are
      exactly those defined in a block that is not skipped, each with a
      non-empty list of the defining block names, one per definition. */
  lemma GetDxfAttributesSpec(doc: Drawing, tag: string)
    ensures var r := Get(GetDxfAttributes(doc), tag);
            && (r.Some? <==> exists i :: 0 <= i < |doc.blocks| && !Skipped(doc.blocks[i]) &&
                                         tag in doc.blocks[i].attdefTags)
            && (r.Some? ==> |r.value| > 0 && r.value == Occurrences(AttdefPairs(doc.blocks), tag))
    ensures Keys(GetDxfAttributes(doc)) == Dedup(TagsOf(AttdefPairs(doc.blocks)))
  {
    var ps := AttdefPairs(doc.blocks);
    HarvestGet(ps, tag);
    HarvestKeys(ps);
    OccurrencesEmpty(ps, tag);
    if exists i :: 0 <= i < |doc.blocks| && !Skipped(doc.blocks[i]) && tag in doc.blocks[i].attdefTags {
      var i :| 0 <= i < |doc.blocks| && !Skipped(doc.blocks[i]) && tag in doc.blocks[i].attdefTags;
      AttdefPairsMembers(doc.blocks, (tag, doc.blocks[i].name));
    }
    if Occurrences(ps, tag) != [] {
      var p :| p in ps && p.0 == tag;
      AttdefPairsMembers(doc.blocks, p);
    }
  }

  lemma {:induction false} OccurrencesEmpty(ps: seq<(string, string)>, tag: string)
    ensures Occurrences(ps, tag) == [] <==> forall p :: p in ps ==> p.0 != tag
  {
    if ps != [] {
      OccurrencesEmpty(ps[..|ps| - 1], tag);
      assert forall p :: p in ps <==> p in ps[..|ps| - 1] || p == ps[|ps| - 1];
    }
  }

  /** Layout, anonymous and definition-less blocks contribute nothing:
      adding one anywhere changes no tag and no list. */
  lemma GetDxfAttributesIgnoresSkipped(doc: Drawing, i: int, b: BlockDef)
    requires 0 <= i <= |doc.blocks| && Skipped(b)
    ensures GetDxfAttributes(doc.(blocks := doc.blocks[..i] + [b] + doc.blocks[i..])) == GetDxfAttributes(doc)
  {
    var pre, post := doc.blocks[..i], doc.blocks[i..];
    assert pre + post == doc.blocks;
    AttdefPairsSkip(pre, b, post);
  }

  lemma AttdefPairsSkip(pre: seq<BlockDef>, b: BlockDef, post: seq<BlockDef>)
    requires Skipped(b)
    ensures AttdefPairs(pre + [b] + post) == AttdefPairs(pre + post)
  {
    AttdefPairsConcat(pre + [b], post);
    AttdefPairsConcat(pre, [b]);
    AttdefPairsConcat(pre, post);
    assert AttdefPairs([b]) == BlockPairs(b) + AttdefPairs([]) by {
      assert [b][1..] == [];
    }
    assert AttdefPairs(pre) + [] == AttdefPairs(pre);
  }
}

=== FILE: logger.dfy ===
/** The message formatting of the application logger (`AppLogger` in
    src/logger.py). */
module Logger {
  import opened Wrappers
  import opened OrderedDict
  import opened Text

  /** `f"{k}: {v}"` for each entry, in the dictionary's order. */
  function RenderEntries(context: Dict<string, string>): (r: seq<string>)
    ensures |r| == |context|
  {
    seq(|context|, i requires 0 <= i < |context| => context[i].0 + ": " + context[i].1)
  }

  /** `_format_message(message, context)`: a missing or empty context (both
      falsy) leaves the message as it is; otherwise the entries follow in
      parentheses, separated by " | ". */
  function FormatMessage(message: string, context: Option<Dict<string, string>>): (r: string)
    ensures context.None? || context == Some([]) ==> r == message
    ensures context.Some? && context.value != [] ==>
              StartsWith(r, message + " (") && EndsWith(r, ")")
  {
    match context
    case Some(c) =>
      if c != [] then message + " (" + Join(" | ", RenderEntries(c)) + ")" else message
    case None => message
  }

  /** One entry renders as "message (k: v)". */
  lemma FormatOneEntry(message: string, k: string, v: string)
    ensures FormatMessage(message, Some([(k, v)])) == message + " (" + k + ": " + v + ")"
  {
    assert RenderEntries([(k, v)]) == [k + ": " + v];
  }

  /** The entries render in the dictionary's order: one more entry adds its
      "k: v" at the end. */
  lemma RenderAppend(context: Dict<string, string>, k: string, v: string)
    ensures RenderEntries(context + [(k, v)]) == RenderEntries(context) + [k + ": " + v]
  {
    var c := context + [(k, v)];
    assert forall i :: 0 <= i < |context| ==> c[i] == context[i];
  }

  /** One more entry adds " | k: v" before the closing parenthesis. */
  lemma FormatAppendEntry(message: string, context: Dict<string, string>, k: string, v: string)
    requires context != []
    ensures var before := FormatMessage(message, Some(context));
            FormatMessage(message, Some(context + [(k, v)])) ==
              before[..|before| - 1] + " | " + k + ": " + v + ")"
  {
    var parts := RenderEntries(context + [(k, v)]);
    var entry := k + ": " + v;
    RenderAppend(context, k, v);
    assert parts[..|parts| - 1] == RenderEntries(context);
    var joined := Join(" | ", RenderEntries(context));
    assert Join(" | ", parts) == joined + " | " + entry;
    var before := FormatMessage(message, Some(context));
    var body := message + " (" + joined;
    assert before == body + ")";
    assert before[..|before| - 1] == body;
    assert FormatMessage(message, Some(context + [(k, v)])) == message + " (" + (joined + " | " + entry) + ")";
  }
}

=== FILE: mapper.dfy ===
/** Matching of table column names to drawing attribute tags
    (`Mapper` in src/mapper.py). */
module Mapper {
  import opened Wrappers
  import opened OrderedDict
  import opened Text

  /** `SYNONYMS`, in its declared order. */
  const Synonyms: seq<(string, string)> := [
    ("desc", "description"),
    ("addr", "address"),
    ("power", "kw"),
    ("project", "projectname"),
    ("num", "number"),
    ("no", "number")
  ]

  /** The default `fuzzy_threshold`. */
  const DefaultThreshold: int := 70

  /** A synonym table `replace` can be applied with: no empty key. */
  predicate ValidTable(table: seq<(string, string)>) {
    forall i :: 0 <= i < |table| ==> |table[i].0| > 0
  }

  /** The synonym loop as written: `if k in name: name = name.replace(k, v)`
      for each entry in order. */
  function ApplySynonyms(name: string, table: seq<(string, string)>): string
    requires ValidTable(table)
    decreases |table|
  {
    if table == [] then name
    else
      var (k, v) := table[0];
      var name' := if Contains(name, k) then Replace(name, k, v) else name;
      ApplySynonyms(name', table[1..])
  }

  /** The same table applied with unconditional `replace` calls. */
  function ReplaceEach(name: string, table: seq<(string, string)>): string
    requires ValidTable(table)
    decreases |table|
  {
    if table == [] then name
    else ReplaceEach(Replace(name, table[0].0, table[0].1), table[1..])
  }

  /** The `k in name` guard changes nothing: applying every replacement
      unconditionally, in the same order, gives the same name. */
  lemma {:induction false} GuardIsRedundant(name: string, table: seq<(string, string)>)
    requires ValidTable(table)
    ensures ApplySynonyms(name, table) == ReplaceEach(name, table)
    decreases |table|
  {
    if table != [] {
      var (k, v) := table[0];
      if !Contains(name, k) {
        ReplaceAbsent(name, k, v);
      }
      GuardIsRedundant(if Contains(name, k) then Replace(name, k, v) else name, table[1..]);
    }
  }

  /** Applying a table whose replacements are word characters keeps a name
      made of word characters. */
  lemma {:induction false} SynonymsKeepWordChars(name: string, table: seq<(string, string)>)
    requires ValidTable(table)
    requires AllWordChars(name)
    requires forall i :: 0 <= i < |table| ==> AllWordChars(table[i].1)
    ensures AllWordChars(ApplySynonyms(name, table))
    decreases |table|
  {
    if table != [] {
      var (k, v) := table[0];
      if Contains(name, k) {
        ReplaceKeepsWordChars(name, k, v);
      }
      SynonymsKeepWordChars(if Contains(name, k) then Replace(name, k, v) else name, table[1..]);
    }
  }

  lemma SynonymTableFacts()
    ensures ValidTable(Synonyms)
    ensures forall i :: 0 <= i < |Synonyms| ==> AllWordChars(Synonyms[i].1)
  {
    assert AllWordChars("description") && AllWordChars("address") && AllWordChars("kw");
    assert AllWordChars("projectname") && AllWordChars("number");
  }

  /** `_normalize`: lower-case, drop everything outside `[a-z0-9]`, then
      apply the synonyms. The result is made of `[a-z0-9]` only. */
  function Normalize(name: string): (r: string)
    ensures AllWordChars(r)
  {
    SynonymTableFacts();
    var stripped := KeepWordChars(Lower(name));
    KeepWordCharsClean(Lower(name));
    SynonymsKeepWordChars(stripped, Synonyms);
    ApplySynonyms(stripped, Synonyms)
  }

  /** `_normalize` is the stripped lower-case name put through the six
      replacements, unconditionally, in their declared order. */
  lemma NormalizeUnguarded(name: string)
    ensures var s := KeepWordChars(Lower(name));
            Normalize(name) == Synonymise(s)
  {
    SynonymTableFacts();
    var s := KeepWordChars(Lower(name));
    GuardIsRedundant(s, Synonyms);
    var t := Synonyms;
    assert t[1..][1..][1..][1..][1..][1..] == [];
  }

  /** The six replacements of `_normalize`, in order. */
  function Synonymise(s: string): string {
    Replace(Replace(Replace(Replace(Replace(Replace(s,
      "desc", "description"), "addr", "address"), "power", "kw"),
      "project", "projectname"), "num", "number"), "no", "number")
  }

  // ---------------------------------------------------------------------
  // Fuzzy scoring

  /** A similarity score in [0, 100]. */
  type Score = r: real | 0.0 <= r <= 100.0 witness 0.0

  /** The fuzzy-matching library, left uninterpreted: the scorer
      (`fuzz.ratio`) and the way `process.extractOne` chooses among choices
      that tie for the best score, an index into the list of tied choices
      (taken modulo its length), as a function of the query and choices. */
  datatype Fuzzy = Fuzzy(ratio: (string, string) -> Score, tieBreak: (string, seq<string>) -> nat)

  /** The best score of `q` against any of `choices`. */
  function BestScore(f: Fuzzy, q: string, choices: seq<string>): (best: Score)
    requires |choices| > 0
    ensures forall i :: 0 <= i < |choices| ==> f.ratio(q, choices[i]) <= best
    ensures exists i :: 0 <= i < |choices| && f.ratio(q, choices[i]) == best
  {
    if |choices| == 1 then f.ratio(q, choices[0])
    else
      var rest := BestScore(f, q, choices[1..]);
      var here := f.ratio(q, choices[0]);
      if here >= rest then here else rest
  }

  /** The choices that score exactly `best`, in order. */
  function Ties(f: Fuzzy, q: string, choices: seq<string>, best: Score): (r: seq<string>)
    ensures forall x :: x in r ==> x in choices && f.ratio(q, x) == best
    ensures (exists i :: 0 <= i < |choices| && f.ratio(q, choices[i]) == best) ==> |r| > 0
  {
    if choices == [] then []
    else if f.ratio(q, choices[0]) == best then [choices[0]] + Ties(f, q, choices[1..], best)
    else
      assert forall i :: 1 <= i < |choices| ==> choices[i] == choices[1..][i - 1];
      Ties(f, q, choices[1..], best)
  }

  /** `process.extractOne(q, choices, scorer=fuzz.ratio)` on a non-empty
      list: one of the choices with the best score, and that score. */
  function ExtractOne(f: Fuzzy, q: string, choices: seq<string>): (r: (string, Score))
    requires |choices| > 0
    ensures r.0 in choices
    ensures r.1 == f.ratio(q, r.0)
    ensures forall c :: c in choices ==> f.ratio(q, c) <= r.1
  {
    var best := BestScore(f, q, choices);
    var ties := Ties(f, q, choices, best);
    (ties[f.tieBreak(q, choices) % |ties|], best)
  }

  // ---------------------------------------------------------------------
  // Matching

  /** `normalized_attrs`: normalised tag to tag. A later tag with the same
      normalised form overwrites the value but keeps the key's position. */
  function NormIndex(tags: seq<string>): Dict<string, string> {
    FromPairs(NormPairs(tags))
  }

  function NormPairs(tags: seq<string>): seq<(string, string)> {
    seq(|tags|, i requires 0 <= i < |tags| => (Normalize(tags[i]), tags[i]))
  }

  /** One iteration of the column loop of `auto_map`: the tag bound to
      `col`, if any. */
  function MatchColumn(f: Fuzzy, threshold: int, index: Dict<string, string>, col: string): Option<string> {
    var nc := Normalize(col);
    match Get(index, nc)
    case Some(tag) => Some(tag)
    case None =>
      var candidates := Keys(index);
      if |candidates| > 0 then
        var (best, score) := ExtractOne(f, nc, candidates);
        if score >= threshold as real then Get(index, best) else None
      else None
  }

  /** The loop of `auto_map` over the columns, in order. */
  function MapColumns(f: Fuzzy, threshold: int, index: Dict<string, string>, cols: seq<string>): Dict<string, string> {
    if cols == [] then []
    else
      var acc := MapColumns(f, threshold, index, cols[..|cols| - 1]);
      match MatchColumn(f, threshold, index, cols[|cols| - 1])
      case Some(tag) => Put(acc, cols[|cols| - 1], tag)
      case None => acc
  }

  /** `auto_map(df_columns, dxf_attributes)` with `fuzzy_threshold`. */
  function AutoMap(f: Fuzzy, threshold: int, cols: seq<string>, tags: seq<string>): Dict<string, string> {
    MapColumns(f, threshold, NormIndex(tags), cols)
  }

  /** `interactive_map`: the current mapping is accepted and ignored. */
  function InteractiveMap(f: Fuzzy, threshold: int, cols: seq<string>, tags: seq<string>,
                          current: Option<Dict<string, string>>): Dict<string, string> {
    AutoMap(f, threshold, cols, tags)
  }

  // ---------------------------------------------------------------------
  // Properties

  /** The normalised index maps a normalised name to the last tag with that
      normalised form, and has exactly the normalised tags as keys. */
  lemma NormIndexGet(tags: seq<string>, n: string)
    ensures DistinctKeys(NormIndex(tags))
    ensures n in Keys(NormIndex(tags)) <==> exists i :: 0 <= i < |tags| && Normalize(tags[i]) == n
    ensures Get(NormIndex(tags), n).Some? ==>
      exists i :: 0 <= i < |tags| && tags[i] == Get(NormIndex(tags), n).value && Normalize(tags[i]) == n &&
                  forall j :: i < j < |tags| ==> Normalize(tags[j]) != n
  {
    var ps := NormPairs(tags);
    FromPairsGet(ps, n);
    FromPairsHasKey(ps, n);
    assert forall i :: 0 <= i < |tags| ==> ps[i] == (Normalize(tags[i]), tags[i]);
    var r := LastValue(ps, n);
    if r.Some? {
      var i :| 0 <= i < |ps| && ps[i] == (n, r.value) && forall j :: i < j < |ps| ==> ps[j].0 != n;
      assert tags[i] == r.value && Normalize(tags[i]) == n;
    }
  }

  /** Exact precedence: when some tag normalises to the column's normal
      form, the column is bound to the last such tag, whatever the scorer
      and the threshold. */
  lemma ExactMatchWins(f: Fuzzy, threshold: int, tags: seq<string>, col: string, i: int)
    requires 0 <= i < |tags| && Normalize(tags[i]) == Normalize(col)
    requires forall j :: i < j < |tags| ==> Normalize(tags[j]) != Normalize(col)
    ensures MatchColumn(f, threshold, NormIndex(tags), col) == Some(tags[i])
  {
    var n := Normalize(col);
    NormIndexGet(tags, n);
    var t := Get(NormIndex(tags), n);
    assert t.Some?;
    var i' :| 0 <= i' < |tags| && tags[i'] == t.value && Normalize(tags[i']) == n &&
              forall j :: i' < j < |tags| ==> Normalize(tags[j]) != n;
    assert i' == i;
  }

  /** The fuzzy step: when no tag normalises to the column's normal form,
      the column is left unbound exactly when every tag scores below the
      threshold; otherwise it is bound to a tag attaining the best score,
      which reaches the threshold. */
  lemma FuzzyMatch(f: Fuzzy, threshold: int, tags: seq<string>, col: string)
    requires forall i :: 0 <= i < |tags| ==> Normalize(tags[i]) != Normalize(col)
    ensures var r := MatchColumn(f, threshold, NormIndex(tags), col);
            var nc := Normalize(col);
            && (r.None? <==> forall i :: 0 <= i < |tags| ==> f.ratio(nc, Normalize(tags[i])) < threshold as real)
            && (r.Some? ==> r.value in tags && f.ratio(nc, Normalize(r.value)) >= threshold as real)
            && (r.Some? ==> forall i :: 0 <= i < |tags| ==> f.ratio(nc, Normalize(tags[i])) <= f.ratio(nc, Normalize(r.value)))
  {
    var nc := Normalize(col);
    var index := NormIndex(tags);
    NormIndexGet(tags, nc);
    assert Get(index, nc).None?;
    forall i | 0 <= i < |tags| ensures Normalize(tags[i]) in Keys(index) {
      NormIndexGet(tags, Normalize(tags[i]));
    }
    var candidates := Keys(index);
    if |candidates| > 0 {
      var (best, score) := ExtractOne(f, nc, candidates);
      NormIndexGet(tags, best);
      var t := Get(index, best);
      assert t.Some?;
      var i' :| 0 <= i' < |tags| && tags[i'] == t.value && Normalize(tags[i']) == best;
      assert f.ratio(nc, Normalize(t.value)) == score;
    }
  }

  /** Columns are matched independently: the result binds exactly the
      columns of the input, each to what `MatchColumn` gives it, and never
      binds a column twice. */
  lemma {:induction false} MapColumnsGet(f: Fuzzy, threshold: int, index: Dict<string, string>,
                                        cols: seq<string>, c: string)
    ensures DistinctKeys(MapColumns(f, threshold, index, cols))
    ensures Get(MapColumns(f, threshold, index, cols), c) ==
            if c in cols then MatchColumn(f, threshold, index, c) else None
  {
    if cols != [] {
      var init, last := cols[..|cols| - 1], cols[|cols| - 1];
      var acc := MapColumns(f, threshold, index, init);
      MapColumnsGet(f, threshold, index, init, c);
      assert c in cols <==> c in init || c == last;
      match MatchColumn(f, threshold, index, last)
      case Some(tag) =>
        PutGet(acc, last, tag, c);
        PutDistinct(acc, last, tag);
      case None =>
    }
  }

  /** Every entry of the result pairs an input column with an original
      (un-normalised) input tag that `MatchColumn` chose for it. */
  lemma {:induction false} MapColumnsEntries(f: Fuzzy, threshold: int, tags: seq<string>, cols: seq<string>)
    ensures forall e :: e in MapColumns(f, threshold, NormIndex(tags), cols) ==>
      e.0 in cols && e.1 in tags && MatchColumn(f, threshold, NormIndex(tags), e.0) == Some(e.1)
  {
    var index := NormIndex(tags);
    if cols != [] {
      var init, last := cols[..|cols| - 1], cols[|cols| - 1];
      var acc := MapColumns(f, threshold, index, init);
      MapColumnsEntries(f, threshold, tags, init);
      match MatchColumn(f, threshold, index, last)
      case Some(tag) =>
        PutEntries(acc, last, tag);
        MatchedTagIsInput(f, threshold, tags, last);
      case None =>
    }
  }

  /** A column is only ever bound to one of the original input tags. */
  lemma MatchedTagIsInput(f: Fuzzy, threshold: int, tags: seq<string>, col: string)
    ensures MatchColumn(f, threshold, NormIndex(tags), col).Some? ==>
              MatchColumn(f, threshold, NormIndex(tags), col).value in tags
  {
    var index, nc := NormIndex(tags), Normalize(col);
    if Get(index, nc).Some? {
      NormIndexGet(tags, nc);
    } else if |Keys(index)| > 0 {
      var (best, score) := ExtractOne(f, nc, Keys(index));
      NormIndexGet(tags, best);
    }
  }

  /** `auto_map`: keys are distinct input columns, values are input tags,
      and each column gets exactly its own match. */
  lemma AutoMapSpec(f: Fuzzy, threshold: int, cols: seq<string>, tags: seq<string>, c: string)
    ensures DistinctKeys(AutoMap(f, threshold, cols, tags))
    ensures Get(AutoMap(f, threshold, cols, tags), c) ==
            if c in cols then MatchColumn(f, threshold, NormIndex(tags), c) else None
    ensures forall e :: e in AutoMap(f, threshold, cols, tags) ==> e.0 in cols && e.1 in tags
  {
    MapColumnsGet(f, threshold, NormIndex(tags), cols, c);
    MapColumnsEntries(f, threshold, tags, cols);
  }

  /** No columns or no tags: nothing is bound. */
  lemma AutoMapDegenerate(f: Fuzzy, threshold: int, cols: seq<string>, tags: seq<string>)
    requires cols == [] || tags == []
    ensures AutoMap(f, threshold, cols, tags) == []
  {
    if tags == [] {
      assert NormPairs(tags) == [];
      NothingToMatch(f, threshold, cols);
    }
  }

  lemma {:induction false} NothingToMatch(f: Fuzzy, threshold: int, cols: seq<string>)
    ensures MapColumns(f, threshold, [], cols) == []
  {
    if cols != [] {
      NothingToMatch(f, threshold, cols[..|cols| - 1]);
    }
  }

  /** `interactive_map` returns the automatic mapping whatever current
      mapping it is given. */
  lemma InteractiveMapIgnoresCurrent(f: Fuzzy, threshold: int, cols: seq<string>, tags: seq<string>,
                                     current: Option<Dict<string, string>>)
    ensures InteractiveMap(f, threshold, cols, tags, current) == AutoMap(f, threshold, cols, tags)
    ensures InteractiveMap(f, threshold, cols, tags, current) == InteractiveMap(f, threshold, cols, tags, None)
  {
  }
}

=== FILE: mapper_examples.dfy ===
/** Worked examples of normalisation and automatic mapping: the column
    names and attribute tags of the example in src/mapper.py, normalised
    one replacement at a time. */
module MapperExamples {
  import opened Wrappers
  import opened OrderedDict
  import opened Text
  import opened Mapper

  // ---------------------------------------------------------------------
  // Stepping through `_normalize`

  /** Normalising in two steps: stripping, then the replacements. */
  lemma NormalizeVia(name: string, stripped: string, out: string)
    requires KeepWordChars(Lower(name)) == stripped
    requires Synonymise(stripped) == out
    ensures Normalize(name) == out
  {
    NormalizeUnguarded(name);
  }

  /** The six replacements, one result at a time. */
  lemma SynonymiseSteps(s: string, s1: string, s2: string, s3: string, s4: string, s5: string, s6: string)
    requires Replace(s, "desc", "description") == s1
    requires Replace(s1, "addr", "address") == s2
    requires Replace(s2, "power", "kw") == s3
    requires Replace(s3, "project", "projectname") == s4
    requires Replace(s4, "num", "number") == s5
    requires Replace(s5, "no", "number") == s6
    ensures Synonymise(s) == s6
  {
  }

  /** A name without the letters c, r, p and n contains no synonym key,
      so the replacements leave it alone. */
  lemma SynonymiseFixes(s: string)
    requires 'c' !in s && 'r' !in s && 'p' !in s && 'n' !in s
    ensures Synonymise(s) == s
  {
    ReplaceMissingChar(s, "desc", "description", 3);
    ReplaceMissingChar(s, "addr", "address", 3);
    ReplaceMissingChar(s, "power", "kw", 0);
    ReplaceMissingChar(s, "project", "projectname", 0);
    ReplaceMissingChar(s, "num", "number", 0);
    ReplaceMissingChar(s, "no", "number", 0);
  }

  /** A name already lower-case and made of `[a-z0-9]` is not stripped. */
  lemma StripWord(name: string, lower: string)
    requires Lower(name) == lower && AllWordChars(lower)
    ensures KeepWordChars(Lower(name)) == lower
  {
    KeepWordCharsFixes(lower);
  }

  /** Stripping `a_b` where `a` and `b` are already clean gives `a + b`. */
  lemma KeepUnderscoreJoin(a: string, b: string)
    requires AllWordChars(a) && AllWordChars(b)
    ensures KeepWordChars(a + "_" + b) == a + b
  {
    KeepWordCharsConcat(a + "_", b);
    KeepWordCharsConcat(a, "_");
    KeepWordCharsFixes(a);
    KeepWordCharsFixes(b);
    assert KeepWordChars("_") == [];
  }

  /** Two words joined by an underscore lose the underscore. */
  lemma StripJoin(a: string, b: string, la: string, lb: string)
    requires Lower(a) == la && Lower(b) == lb && AllWordChars(la) && AllWordChars(lb)
    ensures KeepWordChars(Lower(a + "_" + b)) == la + lb
  {
    LowerConcat(a + "_", b);
    LowerConcat(a, "_");
    assert Lower("_") == "_";
    KeepUnderscoreJoin(la, lb);
  }

  /** How the example strings are spelt from their pieces. */
  lemma Spelling()
    ensures "desc" + "" == "desc"
    ensures "descriptio" + ['n'] == "description"
    ensures "desc" + "ription" == "description"
    ensures "description" + "ription" == "descriptionription"
    ensures "descriptio" + ['n'] + "ription" == "descriptionription"
    ensures "riptio" + ['n'] == "ription"
    ensures "project" + "name" == "projectname"
    ensures "projectname" + "name" == "projectnamename"
    ensures ['n'] + "ame" == "name"
    ensures ['n'] + "amename" == "namename"
    ensures "ame" + "name" == "amename"
    ensures "project" + "namename" == "projectnamename"
    ensures "addr" + "ess" == "address"
    ensures "address" + "ess" == "addressess"
    ensures "power" + "kw" == "powerkw"
    ensures "kw" + "kw" == "kwkw"
    ensures "revisio" + "nno" == "revisionno"
    ensures "revisio" + "nnumber" == "revisionnumber"
    ensures ['n'] + "no" == "nno"
    ensures "no" + "" == "no"
    ensures ['n'] + "number" == "nnumber"
    ensures "Project" + "_" + "Name" == "Project_Name"
    ensures "Power" + "_" + "kW" == "Power_kW"
    ensures "POWER" + "_" + "KW" == "POWER_KW"
    ensures "ISSUE" + "_" + "DATE" == "ISSUE_DATE"
    ensures "issue" + "date" == "issuedate"
    ensures "REVISION" + "_" + "NO" == "REVISION_NO"
    ensures "revision" + "no" == "revisionno"
  {
  }

  // ---------------------------------------------------------------------
  // Keys that cannot occur

  /** Without a 'd' or an 'a', neither "desc" nor "addr" occurs. */
  lemma DescAddrFixed(s: string)
    requires 'd' !in s && 'a' !in s
    ensures Replace(s, "desc", "description") == s
    ensures Replace(s, "addr", "address") == s
  {
    ReplaceMissingChar(s, "desc", "description", 0);
    ReplaceMissingChar(s, "addr", "address", 0);
  }

  /** Without a 'p', neither "power" nor "project" occurs. */
  lemma PowerProjectFixed(s: string)
    requires 'p' !in s
    ensures Replace(s, "power", "kw") == s
    ensures Replace(s, "project", "projectname") == s
  {
    ReplaceMissingChar(s, "power", "kw", 0);
    ReplaceMissingChar(s, "project", "projectname", 0);
  }

  /** Without an 'n', neither "num" nor "no" occurs. */
  lemma NumNoFixed(s: string)
    requires 'n' !in s
    ensures Replace(s, "num", "number") == s
    ensures Replace(s, "no", "number") == s
  {
    ReplaceMissingChar(s, "num", "number", 0);
    ReplaceMissingChar(s, "no", "number", 0);
  }

  /** Without an 'a', a 'w', a 'j' or a 'u', none of "addr", "power",
      "project" and "num" occurs. */
  lemma MiddleFixed(s: string)
    requires 'a' !in s && 'w' !in s && 'j' !in s && 'u' !in s
    ensures Replace(s, "addr", "address") == s
    ensures Replace(s, "power", "kw") == s
    ensures Replace(s, "project", "projectname") == s
    ensures Replace(s, "num", "number") == s
  {
    ReplaceMissingChar(s, "addr", "address", 0);
    ReplaceMissingChar(s, "power", "kw", 2);
    ReplaceMissingChar(s, "project", "projectname", 3);
    ReplaceMissingChar(s, "num", "number", 1);
  }

  /** Without a 'd', an 'a', a 'p' or a 'u', none of the keys before
      "no" occurs. */
  lemma FrontFixed(s: string)
    requires 'd' !in s && 'a' !in s && 'p' !in s && 'u' !in s
    ensures Replace(s, "desc", "description") == s
    ensures Replace(s, "addr", "address") == s
    ensures Replace(s, "power", "kw") == s
    ensures Replace(s, "project", "projectname") == s
    ensures Replace(s, "num", "number") == s
  {
    DescAddrFixed(s);
    PowerProjectFixed(s);
    ReplaceMissingChar(s, "num", "number", 1);
  }

  /** Without a 'd' or a 'w', none of "desc", "addr" and "power" occurs. */
  lemma DescAddrPowerFixed(s: string)
    requires 'd' !in s && 'w' !in s
    ensures Replace(s, "desc", "description") == s
    ensures Replace(s, "addr", "address") == s
    ensures Replace(s, "power", "kw") == s
  {
    ReplaceMissingChar(s, "desc", "description", 0);
    ReplaceMissingChar(s, "addr", "address", 1);
    ReplaceMissingChar(s, "power", "kw", 2);
  }

  /** A key found at the front and nowhere after its first letter. */
  lemma ReplaceOnceAtHead(k: string, rest: string, v: string)
    requires |k| > 0 && k[0] !in rest
    ensures Replace(k + rest, k, v) == v + rest
  {
    ReplaceHead(k, rest, v);
    ReplaceMissingChar(rest, k, v, 0);
  }

  /** The first letter of a key, not followed by the second and with no
      earlier occurrence, is passed over. */
  lemma SkipFirstLetter(a: string, b: string, k: string, v: string)
    requires |k| >= 2 && k[0] !in a && |b| > 0 && b[0] != k[1]
    ensures Replace(a + [k[0]] + b, k, v) == a + [k[0]] + Replace(b, k, v)
  {
    var t := [k[0]] + b;
    ReplaceSkipsPrefix(a, t, k, v);
    assert a + [k[0]] + b == a + t;
    ReplaceStep(k[0], b, k, v);
  }

  /** The first letter of a key, last and with no earlier occurrence,
      is passed over. */
  lemma FirstLetterLast(a: string, k: string, v: string)
    requires |k| >= 2 && k[0] !in a
    ensures Replace(a + [k[0]], k, v) == a + [k[0]]
  {
    ReplaceSkipsPrefix(a, [k[0]], k, v);
    ReplaceShort([k[0]], k, v);
  }

  // ---------------------------------------------------------------------
  // "desc" and "description"

  lemma DescHead()
    ensures Replace("desc", "desc", "description") == "description"
  {
    ReplaceHead("desc", "", "description");
    Spelling();
    ReplaceShort("", "desc", "description");
  }

  lemma NoInDescription()
    ensures Replace("description", "no", "number") == "description"
  {
    FirstLetterLast("descriptio", "no", "number");
    Spelling();
  }

  lemma DescriptionFixed()
    ensures Replace("description", "addr", "address") == "description"
    ensures Replace("description", "power", "kw") == "description"
    ensures Replace("description", "project", "projectname") == "description"
    ensures Replace("description", "num", "number") == "description"
  {
    MiddleFixed("description");
  }

  lemma SynonymiseDesc()
    ensures Synonymise("desc") == "description"
  {
    DescHead();
    DescriptionFixed();
    NoInDescription();
    SynonymiseSteps("desc", "description", "description", "description", "description", "description", "description");
  }

  /** "desc" inside "description" is replaced again. */
  lemma DescTwice()
    ensures Replace("description", "desc", "description") == "descriptionription"
  {
    ReplaceOnceAtHead("desc", "ription", "description");
    Spelling();
  }

  lemma NoInDescriptionription()
    ensures Replace("descriptionription", "no", "number") == "descriptionription"
  {
    SkipFirstLetter("descriptio", "ription", "no", "number");
    Spelling();
    FirstLetterLast("riptio", "no", "number");
  }

  lemma DescriptionriptionFixed()
    ensures Replace("descriptionription", "addr", "address") == "descriptionription"
    ensures Replace("descriptionription", "power", "kw") == "descriptionription"
    ensures Replace("descriptionription", "project", "projectname") == "descriptionription"
    ensures Replace("descriptionription", "num", "number") == "descriptionription"
  {
    MiddleFixed("descriptionription");
  }

  lemma SynonymiseDescription()
    ensures Synonymise("description") == "descriptionription"
  {
    DescTwice();
    DescriptionriptionFixed();
    NoInDescriptionription();
    SynonymiseSteps("description", "descriptionription", "descriptionription", "descriptionription",
                    "descriptionription", "descriptionription", "descriptionription");
  }

  lemma StripDesc()
    ensures KeepWordChars(Lower("desc")) == "desc"
  {
    StripWord("desc", "desc");
  }

  lemma StripDescTag()
    ensures KeepWordChars(Lower("DESC")) == "desc"
  {
    StripWord("DESC", "desc");
  }

  lemma StripDescription()
    ensures KeepWordChars(Lower("description")) == "description"
  {
    StripWord("description", "description");
  }

  lemma StripDescriptionColumn()
    ensures KeepWordChars(Lower("Description")) == "description"
  {
    StripWord("Description", "description");
  }

  lemma NormalizeDesc()
    ensures Normalize("desc") == "description"
  {
    StripDesc();
    SynonymiseDesc();
    NormalizeVia("desc", "desc", "description");
  }

  lemma NormalizeDescription()
    ensures Normalize("description") == "descriptionription"
  {
    StripDescription();
    SynonymiseDescription();
    NormalizeVia("description", "description", "descriptionription");
  }

  /** Normalisation is not idempotent: "desc" becomes "description", which
      normalises again to "descriptionription". */
  lemma NormalizeNotIdempotent()
    ensures Normalize("desc") == "description"
    ensures Normalize("description") == "descriptionription"
    ensures Normalize(Normalize("desc")) != Normalize("desc")
  {
    NormalizeDesc();
    NormalizeDescription();
  }

  // ---------------------------------------------------------------------
  // The example's names

  lemma ProjectHead()
    ensures Replace("projectname", "project", "projectname") == "projectnamename"
  {
    ReplaceHead("project", "name", "projectname");
    Spelling();
    ReplaceShort("name", "project", "projectname");
  }

  lemma NoInName()
    ensures Replace("name", "no", "number") == "name"
  {
    ReplaceStep('n', "ame", "no", "number");
    Spelling();
    ReplaceMissingChar("ame", "no", "number", 0);
  }

  lemma NoInNameName()
    ensures Replace("namename", "no", "number") == "namename"
  {
    ReplaceStep('n', "amename", "no", "number");
    Spelling();
    ReplaceSkipsPrefix("ame", "name", "no", "number");
    NoInName();
  }

  lemma NoInProjectNameName()
    ensures Replace("projectnamename", "no", "number") == "projectnamename"
  {
    ReplaceSkipsPrefix("project", "namename", "no", "number");
    Spelling();
    NoInNameName();
  }

  lemma ProjectNameFixed()
    ensures Replace("projectname", "desc", "description") == "projectname"
    ensures Replace("projectname", "addr", "address") == "projectname"
    ensures Replace("projectname", "power", "kw") == "projectname"
  {
    DescAddrPowerFixed("projectname");
  }

  lemma NumInProjectNameName()
    ensures Replace("projectnamename", "num", "number") == "projectnamename"
  {
    ReplaceMissingChar("projectnamename", "num", "number", 1);
  }

  lemma SynonymiseProjectName()
    ensures Synonymise("projectname") == "projectnamename"
  {
    ProjectNameFixed();
    ProjectHead();
    NumInProjectNameName();
    NoInProjectNameName();
    SynonymiseSteps("projectname", "projectname", "projectname", "projectname",
                    "projectnamename", "projectnamename", "projectnamename");
  }

  lemma AddrHead()
    ensures Replace("address", "addr", "address") == "addressess"
  {
    ReplaceHead("addr", "ess", "address");
    Spelling();
    ReplaceMissingChar("ess", "addr", "address", 0);
  }

  lemma DescInAddress()
    ensures Replace("address", "desc", "description") == "address"
  {
    ReplaceMissingChar("address", "desc", "description", 3);
  }

  lemma AddressessFixed()
    ensures Replace("addressess", "power", "kw") == "addressess"
    ensures Replace("addressess", "project", "projectname") == "addressess"
    ensures Replace("addressess", "num", "number") == "addressess"
    ensures Replace("addressess", "no", "number") == "addressess"
  {
    PowerProjectFixed("addressess");
    NumNoFixed("addressess");
  }

  lemma SynonymiseAddress()
    ensures Synonymise("address") == "addressess"
  {
    DescInAddress();
    AddrHead();
    AddressessFixed();
    SynonymiseSteps("address", "address", "addressess", "addressess", "addressess", "addressess", "addressess");
  }

  lemma PowerHead()
    ensures Replace("powerkw", "power", "kw") == "kwkw"
  {
    ReplaceHead("power", "kw", "kw");
    Spelling();
    ReplaceShort("kw", "power", "kw");
  }

  lemma PowerkwFixed()
    ensures Replace("powerkw", "desc", "description") == "powerkw"
    ensures Replace("powerkw", "addr", "address") == "powerkw"
  {
    DescAddrFixed("powerkw");
  }

  lemma KwkwFixed()
    ensures Replace("kwkw", "project", "projectname") == "kwkw"
    ensures Replace("kwkw", "num", "number") == "kwkw"
    ensures Replace("kwkw", "no", "number") == "kwkw"
  {
    PowerProjectFixed("kwkw");
    NumNoFixed("kwkw");
  }

  lemma SynonymisePower()
    ensures Synonymise("powerkw") == "kwkw"
  {
    PowerkwFixed();
    PowerHead();
    KwkwFixed();
    SynonymiseSteps("powerkw", "powerkw", "powerkw", "kwkw", "kwkw", "kwkw", "kwkw");
  }

  lemma RevisionNo()
    ensures Replace("revisionno", "no", "number") == "revisionnumber"
  {
    ReplaceSkipsPrefix("revisio", "nno", "no", "number");
    Spelling();
    NoInNno();
  }

  lemma NoInNno()
    ensures Replace("nno", "no", "number") == "nnumber"
  {
    ReplaceStep('n', "no", "no", "number");
    Spelling();
    ReplaceHead("no", "", "number");
    ReplaceShort("", "no", "number");
  }

  lemma RevisionnoFixed()
    ensures Replace("revisionno", "desc", "description") == "revisionno"
    ensures Replace("revisionno", "addr", "address") == "revisionno"
    ensures Replace("revisionno", "power", "kw") == "revisionno"
    ensures Replace("revisionno", "project", "projectname") == "revisionno"
    ensures Replace("revisionno", "num", "number") == "revisionno"
  {
    FrontFixed("revisionno");
  }

  lemma SynonymiseRevisionNo()
    ensures Synonymise("revisionno") == "revisionnumber"
  {
    RevisionnoFixed();
    RevisionNo();
    SynonymiseSteps("revisionno", "revisionno", "revisionno", "revisionno", "revisionno", "revisionno", "revisionnumber");
  }

  lemma IssuedateFixed()
    ensures Synonymise("issuedate") == "issuedate"
  {
    SynonymiseFixes("issuedate");
  }

  lemma StripProjectName()
    ensures KeepWordChars(Lower("Project_Name")) == "projectname"
  {
    StripJoin("Project", "Name", "project", "name");
    Spelling();
  }

  lemma StripProjectNameTag()
    ensures KeepWordChars(Lower("PROJECTNAME")) == "projectname"
  {
    StripWord("PROJECTNAME", "projectname");
  }

  lemma StripAddress()
    ensures KeepWordChars(Lower("Address")) == "address"
  {
    StripWord("Address", "address");
  }

  lemma StripAddressTag()
    ensures KeepWordChars(Lower("ADDRESS")) == "address"
  {
    StripWord("ADDRESS", "address");
  }

  lemma StripPower()
    ensures KeepWordChars(Lower("Power_kW")) == "powerkw"
  {
    StripJoin("Power", "kW", "power", "kw");
    Spelling();
  }

  lemma StripPowerTag()
    ensures KeepWordChars(Lower("POWER_KW")) == "powerkw"
  {
    StripJoin("POWER", "KW", "power", "kw");
    Spelling();
  }

  lemma StripIssueDate()
    ensures KeepWordChars(Lower("ISSUE_DATE")) == "issuedate"
  {
    StripJoin("ISSUE", "DATE", "issue", "date");
    Spelling();
  }

  lemma StripRevisionNo()
    ensures KeepWordChars(Lower("REVISION_NO")) == "revisionno"
  {
    StripJoin("REVISION", "NO", "revision", "no");
    Spelling();
  }

  lemma NormalizeProjectNameColumn()
    ensures Normalize("Project_Name") == "projectnamename"
  {
    StripProjectName();
    SynonymiseProjectName();
    NormalizeVia("Project_Name", "projectname", "projectnamename");
  }

  lemma NormalizeProjectNameTag()
    ensures Normalize("PROJECTNAME") == "projectnamename"
  {
    StripProjectNameTag();
    SynonymiseProjectName();
    NormalizeVia("PROJECTNAME", "projectname", "projectnamename");
  }

  lemma NormalizeAddressColumn()
    ensures Normalize("Address") == "addressess"
  {
    StripAddress();
    SynonymiseAddress();
    NormalizeVia("Address", "address", "addressess");
  }

  lemma NormalizeAddressTag()
    ensures Normalize("ADDRESS") == "addressess"
  {
    StripAddressTag();
    SynonymiseAddress();
    NormalizeVia("ADDRESS", "address", "addressess");
  }

  lemma NormalizePowerColumn()
    ensures Normalize("Power_kW") == "kwkw"
  {
    StripPower();
    SynonymisePower();
    NormalizeVia("Power_kW", "powerkw", "kwkw");
  }

  lemma NormalizePowerTag()
    ensures Normalize("POWER_KW") == "kwkw"
  {
    StripPowerTag();
    SynonymisePower();
    NormalizeVia("POWER_KW", "powerkw", "kwkw");
  }

  lemma NormalizeDescTag()
    ensures Normalize("DESC") == "description"
  {
    StripDescTag();
    SynonymiseDesc();
    NormalizeVia("DESC", "desc", "description");
  }

  lemma NormalizeDescriptionColumn()
    ensures Normalize("Description") == "descriptionription"
  {
    StripDescriptionColumn();
    SynonymiseDescription();
    NormalizeVia("Description", "description", "descriptionription");
  }

  /** No synonym key occurs in "issuedate". */
  lemma NormalizeIssueDate()
    ensures Normalize("ISSUE_DATE") == "issuedate"
  {
    StripIssueDate();
    IssuedateFixed();
    NormalizeVia("ISSUE_DATE", "issuedate", "issuedate");
  }

  /** The trailing "no" of "revisionno" becomes "number". */
  lemma NormalizeRevisionNo()
    ensures Normalize("REVISION_NO") == "revisionnumber"
  {
    StripRevisionNo();
    SynonymiseRevisionNo();
    NormalizeVia("REVISION_NO", "revisionno", "revisionnumber");
  }

  /** The example column names and tags normalise pairwise to the same
      forms: "projectnamename", "addressess" and "kwkw". */
  lemma NormalizeExamples()
    ensures Normalize("Project_Name") == Normalize("PROJECTNAME") == "projectnamename"
    ensures Normalize("Address") == Normalize("ADDRESS") == "addressess"
    ensures Normalize("Power_kW") == Normalize("POWER_KW") == "kwkw"
  {
    NormalizeProjectNameColumn();
    NormalizeProjectNameTag();
    NormalizeAddressColumn();
    NormalizeAddressTag();
    NormalizePowerColumn();
    NormalizePowerTag();
  }

  // ---------------------------------------------------------------------
  // The example mapping

  /** The example column names and tags of src/mapper.py. */
  const ExampleColumns: seq<string> :=
    ["Project_Name", "Address", "Power_kW", "Description", "Date_of_Issue", "Unused_Column"]
  const ExampleTags: seq<string> :=
    ["PROJECTNAME", "ADDRESS", "POWER_KW", "DESC", "ISSUE_DATE", "REVISION_NO"]

  /** The normal forms of the example tags, in order. */
  const ExampleForms: seq<string> :=
    ["projectnamename", "addressess", "kwkw", "description", "issuedate", "revisionnumber"]

  lemma ExampleTagForm(j: int)
    requires 0 <= j < |ExampleTags|
    ensures Normalize(ExampleTags[j]) == ExampleForms[j]
  {
    if j == 0 {
      NormalizeProjectNameTag();
    } else if j == 1 {
      NormalizeAddressTag();
    } else if j == 2 {
      NormalizePowerTag();
    } else if j == 3 {
      NormalizeDescTag();
    } else if j == 4 {
      NormalizeIssueDate();
    } else {
      NormalizeRevisionNo();
    }
  }

  /** The example forms have pairwise different lengths. */
  lemma ExampleFormLengths()
    ensures forall i, j :: 0 <= i < j < |ExampleForms| ==> |ExampleForms[i]| != |ExampleForms[j]|
  {
  }

  /** Tag `i` is the last tag with normal form `n`. */
  lemma LastWithForm(i: int, n: string)
    requires 0 <= i < |ExampleForms| && ExampleForms[i] == n
    ensures Normalize(ExampleTags[i]) == n
    ensures forall j :: i < j < |ExampleTags| ==> Normalize(ExampleTags[j]) != n
  {
    ExampleTagForm(i);
    ExampleFormLengths();
    forall j | i < j < |ExampleTags| ensures Normalize(ExampleTags[j]) != n {
      ExampleTagForm(j);
    }
  }

  lemma ExampleMatchesProjectName(f: Fuzzy)
    ensures MatchColumn(f, DefaultThreshold, NormIndex(ExampleTags), "Project_Name") == Some("PROJECTNAME")
  {
    NormalizeProjectNameColumn();
    LastWithForm(0, "projectnamename");
    ExactMatchWins(f, DefaultThreshold, ExampleTags, "Project_Name", 0);
  }

  lemma ExampleMatchesAddress(f: Fuzzy)
    ensures MatchColumn(f, DefaultThreshold, NormIndex(ExampleTags), "Address") == Some("ADDRESS")
  {
    NormalizeAddressColumn();
    LastWithForm(1, "addressess");
    ExactMatchWins(f, DefaultThreshold, ExampleTags, "Address", 1);
  }

  lemma ExampleMatchesPower(f: Fuzzy)
    ensures MatchColumn(f, DefaultThreshold, NormIndex(ExampleTags), "Power_kW") == Some("POWER_KW")
  {
    NormalizePowerColumn();
    LastWithForm(2, "kwkw");
    ExactMatchWins(f, DefaultThreshold, ExampleTags, "Power_kW", 2);
  }

  /** In the example, Project_Name, Address and Power_kW are bound exactly
      to PROJECTNAME, ADDRESS and POWER_KW, whatever the scorer, and only
      columns of the table are bound. */
  lemma ExampleMapsExactly(f: Fuzzy, c: string)
    ensures var m := AutoMap(f, DefaultThreshold, ExampleColumns, ExampleTags);
            && Get(m, "Project_Name") == Some("PROJECTNAME")
            && Get(m, "Address") == Some("ADDRESS")
            && Get(m, "Power_kW") == Some("POWER_KW")
            && (c !in ExampleColumns ==> Get(m, c) == None)
  {
    ExampleMatchesProjectName(f);
    ExampleMatchesAddress(f);
    ExampleMatchesPower(f);
    AutoMapSpec(f, DefaultThreshold, ExampleColumns, ExampleTags, "Project_Name");
    AutoMapSpec(f, DefaultThreshold, ExampleColumns, ExampleTags, "Address");
    AutoMapSpec(f, DefaultThreshold, ExampleColumns, ExampleTags, "Power_kW");
    AutoMapSpec(f, DefaultThreshold, ExampleColumns, ExampleTags, c);
  }

  /** No example tag normalises to "descriptionription". */
  lemma NoTagIsDescriptionription()
    ensures forall j :: 0 <= j < |ExampleTags| ==> Normalize(ExampleTags[j]) != "descriptionription"
  {
    forall j | 0 <= j < |ExampleTags| ensures Normalize(ExampleTags[j]) != "descriptionription" {
      ExampleTagForm(j);
      assert |ExampleForms[j]| < 18;
    }
  }

  /** "Description" is not an exact match for DESC: it normalises to
      "descriptionription" while DESC normalises to "description", so the
      column is bound only if some tag reaches the threshold under the
      scorer, and then to a tag that does. */
  lemma DescriptionIsFuzzy(f: Fuzzy)
    ensures var r := MatchColumn(f, DefaultThreshold, NormIndex(ExampleTags), "Description");
            var nc := "descriptionription";
            && (r.None? <==> forall i :: 0 <= i < |ExampleTags| ==> f.ratio(nc, Normalize(ExampleTags[i])) < 70.0)
            && (r.Some? ==> r.value in ExampleTags && f.ratio(nc, Normalize(r.value)) >= 70.0)
  {
    NormalizeDescriptionColumn();
    NoTagIsDescriptionription();
    FuzzyMatch(f, DefaultThreshold, ExampleTags, "Description");
  }
}

=== FILE: ordered_dict.dfy ===
/** Python dictionaries: entries kept in insertion order, where assigning to
    an existing key overwrites its value in place and assigning to a new key
    appends an entry at the end. */
module OrderedDict {
  import opened Wrappers

  type Dict<K, V> = seq<(K, V)>

  /** The keys in iteration order (`list(d.keys())`). */
  function Keys<K, V>(d: Dict<K, V>): seq<K> {
    seq(|d|, i requires 0 <= i < |d| => d[i].0)
  }

  /** The set of values (`set(d.values())`). */
  function Values<K, V>(d: Dict<K, V>): set<V> {
    set i | 0 <= i < |d| :: d[i].1
  }

  /** No key occurs twice, as in every dictionary built with `Put`. */
  ghost predicate DistinctKeys<K, V>(d: Dict<K, V>) {
    forall i, j :: 0 <= i < j < |d| ==> d[i].0 != d[j].0
  }

  lemma KeysTail<K, V>(d: Dict<K, V>)
    requires d != []
    ensures Keys(d) == [d[0].0] + Keys(d[1..])
  {
    assert Keys(d) == [d[0].0] + Keys(d[1..]);
  }

  /** `d.get(k)`. */
  function Get<K(==), V>(d: Dict<K, V>, k: K): (r: Option<V>)
    ensures r.Some? <==> k in Keys(d)
    ensures r.Some? ==> (k, r.value) in d
  {
    if d == [] then None
    else
      KeysTail(d);
      if d[0].0 == k then Some(d[0].1) else Get(d[1..], k)
  }

  /** `d[k] = v`. */
  function Put<K(==), V>(d: Dict<K, V>, k: K, v: V): (r: Dict<K, V>)
    ensures |r| == if k in Keys(d) then |d| else |d| + 1
  {
    if d == [] then [(k, v)]
    else
      KeysTail(d);
      if d[0].0 == k then [(k, v)] + d[1..]
      else [d[0]] + Put(d[1..], k, v)
  }

  /** After `d[k] = v`, `k` holds `v` and every other key what it held. */
  lemma {:induction false} PutGet<K, V>(d: Dict<K, V>, k: K, v: V, k': K)
    ensures Get(Put(d, k, v), k') == if k' == k then Some(v) else Get(d, k')
  {
    if d != [] && d[0].0 != k {
      PutGet(d[1..], k, v, k');
    }
  }

  /** Assigning to a present key keeps the key order; assigning to a new key
      appends it. */
  lemma {:induction false} PutKeys<K, V>(d: Dict<K, V>, k: K, v: V)
    ensures k in Keys(d) ==> Keys(Put(d, k, v)) == Keys(d)
    ensures k !in Keys(d) ==> Keys(Put(d, k, v)) == Keys(d) + [k]
  {
    if d != [] {
      KeysTail(d);
      var r := Put(d, k, v);
      KeysTail(r);
      if d[0].0 != k {
        PutKeys(d[1..], k, v);
      }
    }
  }

  /** Every entry after `d[k] = v` is an entry of `d` or the pair `(k, v)`. */
  lemma {:induction false} PutEntries<K, V>(d: Dict<K, V>, k: K, v: V)
    ensures forall e :: e in Put(d, k, v) ==> e in d || e == (k, v)
  {
    if d != [] && d[0].0 != k {
      PutEntries(d[1..], k, v);
      assert Put(d, k, v) == [d[0]] + Put(d[1..], k, v);
      forall e | e in Put(d, k, v) ensures e in d || e == (k, v) {
        if e != d[0] {
          assert e in Put(d[1..], k, v);
        }
      }
    }
  }

  /** Assignment never duplicates a key. */
  lemma PutDistinct<K, V>(d: Dict<K, V>, k: K, v: V)
    requires DistinctKeys(d)
    ensures DistinctKeys(Put(d, k, v))
  {
    PutKeys(d, k, v);
    var r := Put(d, k, v);
    assert Keys(r) == Keys(d) || Keys(r) == Keys(d) + [k];
    forall i, j | 0 <= i < j < |r|
      ensures r[i].0 != r[j].0
    {
      assert Keys(r)[i] == r[i].0 && Keys(r)[j] == r[j].0;
      if j == |d| {
        assert Keys(d)[i] == d[i].0;
      } else {
        assert Keys(d)[i] == d[i].0 && Keys(d)[j] == d[j].0;
      }
    }
  }

  /** Assignment adds at most its own value to the values. */
  lemma {:induction false} PutValues<K, V>(d: Dict<K, V>, k: K, v: V)
    ensures v in Values(Put(d, k, v))
    ensures Values(Put(d, k, v)) <= Values(d) + {v}
  {
    var r := Put(d, k, v);
    if d != [] && d[0].0 != k {
      PutValues(d[1..], k, v);
      assert r[0] == d[0];
      forall x | x in Values(r) ensures x in Values(d) + {v} {
        var i :| 0 <= i < |r| && r[i].1 == x;
        if i > 0 && x != v {
          assert r[i] == Put(d[1..], k, v)[i - 1];
          assert x in Values(Put(d[1..], k, v));
          assert x in Values(d[1..]);
          var j :| 0 <= j < |d[1..]| && d[1..][j].1 == x;
          assert d[j + 1].1 == x;
        }
      }
      var j :| 0 <= j < |Put(d[1..], k, v)| && Put(d[1..], k, v)[j].1 == v;
      assert r[j + 1].1 == v;
    } else if d != [] {
      forall x | x in Values(r) ensures x in Values(d) + {v} {
        var i :| 0 <= i < |r| && r[i].1 == x;
        if i > 0 { assert d[i].1 == x; }
      }
      assert r[0].1 == v;
    } else {
      assert r[0].1 == v;
    }
  }

  /** The dictionary built by assigning the pairs one after another, as
      `{k: v for (k, v) in ps}` or a loop of `d[k] = v` does. */
  function FromPairs<K(==), V>(ps: seq<(K, V)>): Dict<K, V> {
    if ps == [] then []
    else Put(FromPairs(ps[..|ps| - 1]), ps[|ps| - 1].0, ps[|ps| - 1].1)
  }

  /** The value of the last pair for `k`, if any: an independent reading of
      what a dictionary built from `ps` holds for `k`. */
  function LastValue<K(==), V>(ps: seq<(K, V)>, k: K): (r: Option<V>)
    ensures r.Some? ==> exists i :: 0 <= i < |ps| && ps[i] == (k, r.value) &&
                          forall j :: i < j < |ps| ==> ps[j].0 != k
    ensures r.None? <==> forall i :: 0 <= i < |ps| ==> ps[i].0 != k
  {
    if ps == [] then None
    else if ps[|ps| - 1].0 == k then Some(ps[|ps| - 1].1)
    else
      var r := LastValue(ps[..|ps| - 1], k);
      assert forall i :: 0 <= i < |ps| - 1 ==> ps[..|ps| - 1][i] == ps[i];
      r
  }

  /** A dictionary built from pairs holds, for each key, the last value
      assigned to it; its keys are distinct. */
  lemma {:induction false} FromPairsGet<K, V>(ps: seq<(K, V)>, k: K)
    ensures Get(FromPairs(ps), k) == LastValue(ps, k)
    ensures DistinctKeys(FromPairs(ps))
  {
    if ps != [] {
      var init, last := ps[..|ps| - 1], ps[|ps| - 1];
      FromPairsGet(init, k);
      PutGet(FromPairs(init), last.0, last.1, k);
      PutDistinct(FromPairs(init), last.0, last.1);
    }
  }

  /** A key is present in a dictionary built from pairs exactly when some
      pair carries it. */
  lemma FromPairsHasKey<K, V>(ps: seq<(K, V)>, k: K)
    ensures k in Keys(FromPairs(ps)) <==> exists i :: 0 <= i < |ps| && ps[i].0 == k
  {
    FromPairsGet(ps, k);
  }
}

=== FILE: text.dfy ===
/** The string operations of Python's `str` and `os.path` that the program
    relies on, restricted to what it uses them for. */
module Text {

  /** `c.lower()` for ASCII letters; every other character is unchanged. */
  function LowerChar(c: char): char {
    if 'A' <= c <= 'Z' then (c as int - 'A' as int + 'a' as int) as char else c
  }

  /** `s.lower()`, ASCII only. */
  function Lower(s: string): (r: string)
    ensures |r| == |s|
  {
    seq(|s|, i requires 0 <= i < |s| => LowerChar(s[i]))
  }

  /** Lower-casing leaves no upper-case letter behind, changes nothing in a
      string that has none, and so is idempotent. */
  lemma LowerIdempotent(s: string)
    ensures forall i :: 0 <= i < |s| ==> !('A' <= Lower(s)[i] <= 'Z')
    ensures Lower(s) == s <==> forall i :: 0 <= i < |s| ==> !('A' <= s[i] <= 'Z')
    ensures Lower(Lower(s)) == Lower(s)
  {
    if Lower(s) == s {
      forall i | 0 <= i < |s|
        ensures !('A' <= s[i] <= 'Z')
      {
        assert Lower(s)[i] == s[i];
      }
    }
  }

  /** Lower-casing works character by character. */
  lemma LowerConcat(a: string, b: string)
    ensures Lower(a + b) == Lower(a) + Lower(b)
  {
  }

  /** A character of the class `[a-z0-9]`. */
  predicate IsWordChar(c: char) {
    'a' <= c <= 'z' || '0' <= c <= '9'
  }

  predicate AllWordChars(s: string) {
    forall i :: 0 <= i < |s| ==> IsWordChar(s[i])
  }

  /** `re.sub(r'[^a-z0-9]', '', s)`. */
  function KeepWordChars(s: string): string {
    if s == [] then []
    else if IsWordChar(s[0]) then [s[0]] + KeepWordChars(s[1..])
    else KeepWordChars(s[1..])
  }

  /** Stripping leaves only word characters. */
  lemma {:induction false} KeepWordCharsClean(s: string)
    ensures AllWordChars(KeepWordChars(s))
  {
    if s != [] {
      KeepWordCharsClean(s[1..]);
    }
  }

  /** A string of word characters is left as it is. */
  lemma {:induction false} KeepWordCharsFixes(s: string)
    requires AllWordChars(s)
    ensures KeepWordChars(s) == s
  {
    if s != [] {
      KeepWordCharsFixes(s[1..]);
      assert s == [s[0]] + s[1..];
    }
  }

  /** Stripping works character by character. */
  lemma {:induction false} KeepWordCharsConcat(s: string, t: string)
    ensures KeepWordChars(s + t) == KeepWordChars(s) + KeepWordChars(t)
  {
    if s == [] {
      assert s + t == t;
    } else {
      KeepWordCharsConcat(s[1..], t);
      assert (s + t)[0] == s[0] && (s + t)[1..] == s[1..] + t;
    }
  }

  lemma {:induction false} KeepLength(s: string)
    ensures |KeepWordChars(s)| <= |s|
  {
    if s != [] {
      KeepLength(s[1..]);
    }
  }

  predicate StartsWith(s: string, prefix: string) {
    |prefix| <= |s| && s[..|prefix|] == prefix
  }

  predicate EndsWith(s: string, suffix: string) {
    |suffix| <= |s| && s[|s| - |suffix|..] == suffix
  }

  /** `k` occurs in `s` starting at position `i`. */
  predicate OccursAt(s: string, k: string, i: nat) {
    i + |k| <= |s| && s[i..i + |k|] == k
  }

  /** `k in s`. */
  predicate Contains(s: string, k: string) {
    exists i: nat | i <= |s| :: OccursAt(s, k, i)
  }

  /** `s.replace(k, v)`: every non-overlapping occurrence of `k`, scanning
      left to right, is replaced by `v`. */
  function Replace(s: string, k: string, v: string): string
    requires |k| > 0
    decreases |s|
  {
    if |s| < |k| then s
    else if s[..|k|] == k then v + Replace(s[|k|..], k, v)
    else [s[0]] + Replace(s[1..], k, v)
  }

  /** A string that does not contain `k` comes back from `replace` unchanged. */
  lemma {:induction false} ReplaceAbsent(s: string, k: string, v: string)
    requires |k| > 0
    requires !Contains(s, k)
    ensures Replace(s, k, v) == s
    decreases |s|
  {
    if |s| >= |k| {
      assert s[0..0 + |k|] == s[..|k|];
      assert !OccursAt(s, k, 0);
      if Contains(s[1..], k) {
        var i: nat :| i <= |s[1..]| && OccursAt(s[1..], k, i);
        assert s[i + 1..i + 1 + |k|] == s[1..][i..i + |k|];
        assert OccursAt(s, k, i + 1);
        assert false;
      }
      ReplaceAbsent(s[1..], k, v);
      assert s == [s[0]] + s[1..];
    }
  }

  /** Replacing with a string of word characters keeps a string of word
      characters. */
  lemma {:induction false} ReplaceKeepsWordChars(s: string, k: string, v: string)
    requires |k| > 0
    requires AllWordChars(s) && AllWordChars(v)
    ensures AllWordChars(Replace(s, k, v))
    decreases |s|
  {
    if |s| >= |k| {
      if s[..|k|] == k {
        ReplaceKeepsWordChars(s[|k|..], k, v);
      } else {
        ReplaceKeepsWordChars(s[1..], k, v);
      }
    }
  }

  /** If some character of `k` does not occur in `s`, `replace` leaves `s`
      as it is. */
  lemma ReplaceMissingChar(s: string, k: string, v: string, j: int)
    requires 0 <= j < |k|
    requires k[j] !in s
    ensures Replace(s, k, v) == s
  {
    assert !Contains(s, k);
    ReplaceAbsent(s, k, v);
  }

  /** A prefix that does not contain the first character of `k` is copied
      as it is. */
  lemma {:induction false} ReplaceSkipsPrefix(a: string, b: string, k: string, v: string)
    requires |k| > 0
    requires k[0] !in a
    ensures Replace(a + b, k, v) == a + Replace(b, k, v)
    decreases |a|
  {
    if a != [] {
      var s := a + b;
      if |s| < |k| {
        assert Replace(b, k, v) == b;
        assert Replace(s, k, v) == s;
      } else {
        assert s[..|k|][0] == a[0];
        assert s[..|k|] != k;
        assert s[0] == a[0];
        assert s[1..] == a[1..] + b;
        ReplaceSkipsPrefix(a[1..], b, k, v);
        assert Replace(s, k, v) == [s[0]] + Replace(s[1..], k, v);
        assert a == [a[0]] + a[1..];
      }
    } else {
      assert a + b == b;
    }
  }

  /** `k` at the front is replaced, and the scan resumes after it. */
  lemma ReplaceHead(k: string, rest: string, v: string)
    requires |k| > 0
    ensures Replace(k + rest, k, v) == v + Replace(rest, k, v)
  {
    assert (k + rest)[..|k|] == k && (k + rest)[|k|..] == rest;
  }

  /** A string shorter than `k` is left as it is. */
  lemma ReplaceShort(s: string, k: string, v: string)
    requires |s| < |k|
    ensures Replace(s, k, v) == s
  {
  }

  /** A first character that starts `k` but is not followed by the rest
      of `k` is copied as it is. */
  lemma ReplaceStep(c: char, rest: string, k: string, v: string)
    requires |k| >= 2 && |rest| > 0 && rest[0] != k[1]
    ensures Replace([c] + rest, k, v) == [c] + Replace(rest, k, v)
  {
    var s := [c] + rest;
    if |s| >= |k| {
      assert s[..|k|][1] == rest[0];
      assert s[1..] == rest;
    } else {
      ReplaceShort(rest, k, v);
    }
  }

  /** `sep.join(parts)`. */
  function Join(sep: string, parts: seq<string>): string {
    if parts == [] then ""
    else if |parts| == 1 then parts[0]
    else Join(sep, parts[..|parts| - 1]) + sep + parts[|parts| - 1]
  }

  /** `os.path.join(a, b)` on POSIX: an absolute `b` discards `a`; otherwise
      a separator is inserted unless `a` is empty or already ends with one. */
  function PathJoin(a: string, b: string): (r: string)
    ensures StartsWith(b, "/") ==> r == b
    ensures !StartsWith(b, "/") ==> StartsWith(r, a) && EndsWith(r, b)
    ensures !StartsWith(b, "/") ==> |r| == |a| + |b| + (if a == "" || EndsWith(a, "/") then 0 else 1)
    ensures |r| > |a| + |b| ==> r[|a|] == '/'
  {
    if StartsWith(b, "/") then b
    else if a == "" || EndsWith(a, "/") then a + b
    else a + "/" + b
  }

  // Decimal rendering of integers, as `str(n)` / an f-string does.

  function DigitChar(d: nat): char
    requires d < 10
  {
    ('0' as int + d) as char
  }

  function DigitValue(c: char): nat {
    if '0' <= c <= '9' then c as int - '0' as int else 0
  }

  predicate AllDigits(s: string) {
    forall i :: 0 <= i < |s| ==> '0' <= s[i] <= '9'
  }

  /** `str(n)` for a natural number. */
  function NatToString(n: nat): (r: string)
    ensures |r| > 0 && AllDigits(r)
    ensures r[0] == '0' ==> n == 0
  {
    if n < 10 then [DigitChar(n)]
    else NatToString(n / 10) + [DigitChar(n % 10)]
  }

  /** The number a string of digits denotes (`int(s)` on digit strings). */
  function ParseNat(s: string): nat {
    if s == [] then 0
    else ParseNat(s[..|s| - 1]) * 10 + DigitValue(s[|s| - 1])
  }

  /** Reading back a rendered number gives the number. */
  lemma {:induction false} ParseNatToString(n: nat)
    ensures ParseNat(NatToString(n)) == n
  {
    var s := NatToString(n);
    if n >= 10 {
      ParseNatToString(n / 10);
      assert s[..|s| - 1] == NatToString(n / 10);
    }
  }

  /** Distinct numbers render as distinct strings. */
  lemma NatToStringInjective(m: nat, n: nat)
    requires NatToString(m) == NatToString(n)
    ensures m == n
  {
    ParseNatToString(m);
    ParseNatToString(n);
  }

  /** `str(i)` for any integer. */
  function IntToString(i: int): (r: string)
    ensures i >= 0 ==> r == NatToString(i)
    ensures i < 0 ==> r == "-" + NatToString(-i)
  {
    if i < 0 then "-" + NatToString(-i) else NatToString(i)
  }
}

=== FILE: wrappers.dfy ===
/** Failure-carrying values used in place of Python's `None` and exceptions. */
module Wrappers {

  /** A value that may be missing (`None` in Python). */
  datatype Option<+T> = None | Some(value: T) {

    /** The value, or `default` when there is none (`d.get(k, default)`). */
    function GetOr(default: T): T {
      match this
      case Some(v) => v
      case None => default
    }
  }

  /** The outcome of a call that either returns a value or raises. */
  datatype Result<+T, +E> = Ok(value: T) | Err(error: E)

  /** The outcome of a call that returns nothing or raises. */
  datatype Outcome<+E> = Pass | Fail(error: E)
}
